=== FILE: README.md ===
# Block stacking solver, modelled in Dafny

The solver in `layout/layout.go` takes rectangular 0/1 grids ("blocks"). A 1
is a solid cell and a 0 is an empty one. The solver stacks all the blocks
bottom to top, each either as given or rotated by 180 degrees. At every
joint, the open rows at the bottom of the upper block must interlock cell
for cell with the open rows at the top of what lies beneath.

The model is split into six modules:

- `Wrappers` (`wrappers.dfy`): the `Option` type. It stands in for the nil
  pointers that `merge` and `dfs` return, and for the panic of `Layout`.
- `Grids` (`grids.dfy`): covers `zeros`, `openBlock` and `rotate`.
  - `Zeros` is the row scan.
  - `OpenTop` and `OpenBottom` are the two loops of `openBlock`, and
    `OpenBlock` dispatches on the `topToLow` flag.
  - `Rotate` is the 180-degree rotation. It is `Reflect(form)`, which
    reverses the order of the rows and also reverses each row.
- `Fit` (`fit.dfy`): covers `merge`.
  - `RowsDiffer` is the cell-by-cell loop.
  - `Merge` returns `high` with its bottom open rows cut off, or `None`.
- `Search` (`search.dfy`): covers `dfs`.
  - `Dfs` is the function, `Try` is its loop from candidate `k` on, and
    `Attempt` is one pass of that loop.
  - The used-id set is passed in and handed back in a `SearchState`. This
    models the delete on backtracking.
  - `Extension` is an independent definition of what a successful search
    returns: a sequence of candidates with unused, distinct ids, each of
    which `merge` accepts against the form left by the one before.
  - `Leftmost` says which extension comes back. At each level the first
    candidate in list order that starts any extension of the remaining
    length is taken, and the rest is the leftmost extension above it.
- `Stacking` (`stacking.dfy`): covers `Layout` and the `Block`,
  `LayoutResult` and `candidate` records.
  - `Candidates` lists all originals, then all rotations, each group in
    input order.
  - `Layout` searches from an empty ground and numbers the path from 1.
    The answer is the leftmost stack, so it is fully determined.
  - Where the source panics, `Layout` returns `None`.
- `StackingExamples` (`stacking_examples.dfy`): the four `Layout` fixtures of
  the tests, worked through the search, and a block that cannot stand on the
  ground.

The repository's tests call `fit(low, high)` and
`openBlock(form, Top|Bottom)`, which `layout.go` does not define. The model
reads them as follows:

- `fit(low, high)` is `Merge(low, high).Some?`;
- `Top` is `topToLow = true` and `Bottom` is `false`.

Two behaviours of `layout.go` are modelled as follows:

- Blocks without rows: `rotate` reads `form[0]` (`layout/layout.go:139`), so
  a block without rows crashes `Layout`. `Stacking.ValidBlocks` requires every
  block to have a row.
- No stack: `Layout` panics when the search fails
  (`layout/layout.go:37-39`). The model returns `None` instead.

## Model

| member | source | states |
|---|---|---|
| Grids.Zeros | layout/layout.go:127-135 | the scan of `zeros` is true exactly when the row contains a 0, so a row of width zero counts as solid |
| Grids.OpenTop | layout/layout.go:106-113 | the top-down loop of `openBlock` returns a prefix of `form`; `OpenTopSpec` and `OpenTopUnique` add that it is the longest prefix of open rows |
| Grids.OpenBottom | layout/layout.go:115-121 | the bottom-up loop of `openBlock` returns at most as many rows as `form` has; this bound is all its own contract states, and `OpenBottomSpec` and `OpenBottomUnique` characterise it as the longest suffix of open rows |
| Grids.OpenBlock | layout/layout.go:103-125 | `openBlock` returns at most as many rows as `form` has, and in top-down mode a prefix of `form`; `OpenBlockSpec` characterises both modes |
| Grids.OpenTopSpec | layout/layout.go:103-113 | the top-down `openBlock` loop returns a prefix of the grid, all its rows hold a 0, and the row after it (if any) is solid |
| Grids.OpenBottomSpec | layout/layout.go:114-122 | the bottom-up `openBlock` loop returns a suffix of the grid in top-to-bottom order, all its rows hold a 0, and the row above it (if any) is solid |
| Grids.OpenBlockSpec | layout/layout.go:103-125 | `openBlock(form, true)` is the longest prefix whose rows all hold a 0, and `openBlock(form, false)` the longest such suffix |
| Grids.OpenTopUnique | layout/layout.go:106-113 | any prefix of open rows followed by a solid row or the end of the grid is exactly what the top-down loop returns |
| Grids.OpenBottomUnique | layout/layout.go:115-121 | any suffix of open rows preceded by a solid row or the start of the grid is exactly what the bottom-up loop returns |
| Grids.OpenBottomAll | layout/layout.go:115-121 | the bottom open face is the whole grid exactly when every row holds a 0 |
| Grids.SolidHasNoOpenFace | layout/layout.go:103-125 | a grid without open rows has an empty open face at the top and at the bottom |
| Grids.Rotate | layout/layout.go:137-151 | `rotate` keeps the row count and width and puts cell `form[i][j]` at `r[l-1-i][w-1-j]`; it needs a first row and rows of one width |
| Grids.RotateByCells | layout/layout.go:137-151 | any grid of the same shape that holds `form[i][j]` at `[l-1-i][w-1-j]` is the rotation of `form` |
| Grids.RotateTwice | layout/layout.go:137-151 | rotating twice gives the original grid back |
| Grids.RotateOpenFaces | layout/layout.go:103-151 | the top open face of a rotated grid is the point reflection of its bottom open face, and vice versa |
| Grids.RotateOpenFacesWithRows | layout/layout.go:103-151 | when the bottom (top) open face has a row, the top (bottom) open face of `rotate(form)` is `rotate` of it |
| Grids.ReverseKeepsZeros | layout/layout.go:141-145 | reversing a row, as `rotate` does, does not change whether it holds a 0 |
| Grids.SolidOpenBlockExample | layout/layout_test.go:293-314 | a fully solid grid has empty open faces in both modes |
| Grids.OpenBottomExample | layout/layout_test.go:315-329 | the open bottom of `[[1,1,1],[1,0,1],[1,0,1]]` is its last two rows |
| Grids.OpenTopExample | layout/layout_test.go:330-344 | the open top of `[[1,0,1],[1,0,1],[1,1,1]]` is its first two rows |
| Grids.RotateSquareExample | layout/layout_test.go:364-376 | `rotate([[1,1],[1,0]])` is `[[0,1],[1,1]]` |
| Grids.RotateWideExample | layout/layout_test.go:377-389 | `rotate([[1,0,1],[1,1,0]])` is `[[0,1,1],[1,0,1]]` |
| Fit.RowDiffers | layout/layout.go:91-95 | the inner loop of `merge` passes a row exactly when every cell differs from the cell facing it |
| Fit.RowsDiffer | layout/layout.go:90-96 | on faces of equal height whose facing rows have one width, the loops of `merge` pass exactly when the two open faces interlock at every cell |
| Fit.Merge | layout/layout.go:83-101 | on success `merge` returns a prefix of `high` |
| Fit.MergeSpec | layout/layout.go:83-96 | `merge` succeeds exactly when the top open face of `low` and the bottom open face of `high` interlock: equal heights, every cell different |
| Fit.MergeCutsBottom | layout/layout.go:98-100 | on success `merge` returns `high` with exactly its bottom open face cut off: the result followed by that face is `high` |
| Fit.MergedKeepsTop | layout/layout.go:98-100 | when `high` has a solid row, the form `merge` leaves has the same top open face as `high` |
| Fit.MergedAllOpen | layout/layout.go:98-100 | when every row of `high` holds a 0, `merge` leaves an empty form |
| Fit.GroundFit | layout/layout.go:83-101 | on an empty form, a block fits exactly when its bottom open face is empty, and the block is kept whole |
| Fit.OpenGridsFit | layout/layout.go:83-101 | two grids of one width that are open faces themselves, of any heights, fit exactly when they interlock: equal heights and a different value in every facing cell; the tests' `fit` |
| Fit.FitExample | layout/layout_test.go:226-237 | `[1,0,0]` under `[0,1,1]` fits |
| Fit.EmptyFitExample | layout/layout_test.go:238-245 | two empty grids fit |
| Fit.ClashExample | layout/layout_test.go:246-259 | open faces of equal height with a repeated cell do not fit |
| Fit.HeightMismatchExample | layout/layout_test.go:260-272 | open faces of heights 2 and 1 do not fit |
| Search.Dfs | layout/layout.go:59-81 | a result is `path` extended by exactly `remaining` candidates that stack on the running form, and it is the leftmost such extension in candidate order; the used set grows by their ids; a failure hands the used set back unchanged and happens only when no such extension exists |
| Search.Try | layout/layout.go:64-80 | the loop of `dfs` from candidate `k` on returns an extension whose first candidate is the first of `cands[k..]` that starts any extension, with the leftmost extension above it; it fails only when no extension starts with any of the remaining candidates, with the used set unchanged |
| Search.Attempt | layout/layout.go:65-77 | one pass of the loop skips a used or non-fitting candidate, marks its id before descending, and on success returns an extension that starts with this candidate and continues leftmost; on a failed descent it deletes the id again, leaving the used set as it was |
| Search.LeftmostUnique | layout/layout.go:59-81 | two leftmost extensions of the same length from the same state are equal, so the stack `dfs` returns is determined by the candidate order |
| Search.ExtensionFacts | layout/layout.go:65-72 | every candidate of an extension is one of the candidates, its id was not used at entry, and the ids are pairwise distinct |
| Search.GroundCondition | layout/layout.go:36 | the first candidate placed on the empty ground has an empty bottom open face |
| Stacking.Candidates | layout/layout.go:19-34 | the candidates are all blocks as given, then all blocks rotated, in input order, with both orientations carrying the block's id |
| Stacking.CandidateOfBlock | layout/layout.go:19-34 | every candidate is one orientation of one of the blocks, with that block's id |
| Stacking.Number | layout/layout.go:41-48 | the numbering loop keeps the path's length, and entry `i` is the id and orientation of `path[i]` with position `i + 1` |
| Stacking.Layout | layout/layout.go:14-51 | no blocks give an empty answer; otherwise the answer has one entry per block, numbered from 1, and is the numbered leftmost stack of candidates from the empty ground; `None` (the panic) comes back exactly when no stack exists |
| Stacking.LayoutIsLeftmostStack | layout/layout.go:36-50 | for any stack of all blocks that is leftmost in candidate order, `Layout` returns exactly that stack, numbered from 1 |
| Stacking.LayoutPlacesEachBlockOnce | layout/layout.go:36-50 | the answer names every block exactly once: distinct ids, each a block's id, each block's id present |
| Stacking.LayoutGround | layout/layout.go:36 | the bottom block of the answer, in its orientation, has an empty bottom open face |
| StackingExamples.FirstLayoutExample | layout/layout_test.go:17-49 | blocks 738 and 841 stack as 738 at position 1 and 841 at position 2, neither rotated |
| StackingExamples.SecondLayoutExample | layout/layout_test.go:50-98 | blocks 443, 327 and 891 stack as 443 as given, then 327 rotated, then 891 rotated |
| StackingExamples.ThirdLayoutExample | layout/layout_test.go:99-155 | blocks 4892, 1839 and 8183 stack as 4892, then 8183, then 1839, none rotated |
| StackingExamples.FourthLayoutExample | layout/layout_test.go:156-205 | blocks 1, 2 and 3 stack as 1 as given, then 3 as given, then 2 rotated |
| StackingExamples.NoStackExample | layout/layout.go:36-39 | a single block whose bottom row is open cannot stand on the empty ground in either orientation, so the search fails and `Layout` gives `None` where the source panics |

## Left out

- The Go test harness (`t.Run`, `reflect.DeepEqual`). Its fixtures appear as example lemmas.
- Slice aliasing: `append(path, block)` and `high[0:...]` share backing arrays in Go. Grids and paths are immutable sequences here. A found path is returned at once, so the sharing does not change any result.
- The panic when no stack exists. `Layout` returns `None` instead.
- Running time. The search is exponential in the number of blocks and has no cancellation to model.
- Integer widths. Ids and cells are `int64` in the source. They are only compared for equality, so they are modelled as `int`. Positions run up to the number of blocks and cannot overflow.
- Input that the source does not handle: blocks without rows, where `rotate` indexes `form[0]`. Also rows of different widths, where `merge` indexes one face's rows by the other face's width, and duplicate ids. All three are excluded by `Stacking.ValidBlocks` rather than modelled as crashes.

=== FILE: fit.dfy ===
/**
 * The fit check of the block layout solver (`merge`): the top open face of
 * the stack so far must interlock, cell for cell, with the bottom open face
 * of the block placed on it. On success the check also yields the part of
 * the new block that the next block is scanned against.
 */
module Fit {
  import opened Wrappers
  import opened Grids

  /**
   * Two open faces interlock: they have the same number of rows, facing rows
   * have the same width, and no cell of the lower face holds the same value
   * as the cell of the upper face at that position: no two facing cells hold
   * the same value.
   */
  ghost predicate Interlocks(low: Grid, high: Grid)
  {
    && |low| == |high|
    && (forall i :: 0 <= i < |low| ==> |low[i]| == |high[i]|)
    && forall i, j :: 0 <= i < |low| && 0 <= j < |low[i]| ==> low[i][j] != high[i][j]
  }

  /** The inner loop of `merge`: no column of `a` repeats the value `b` has there. */
  function RowDiffers(a: Row, b: Row): (r: bool)
    requires |a| <= |b|
    ensures r <==> forall j :: 0 <= j < |a| ==> a[j] != b[j]
  {
    if |a| == 0 then true
    else if a[0] == b[0] then false
    else
      var rest := RowDiffers(a[1..], b[1..]);
      assert forall j :: 1 <= j < |a| ==> a[j] == a[1..][j - 1] && b[j] == b[1..][j - 1];
      rest
  }

  /**
   * The outer loop of `merge`, over the rows of two open faces of equal
   * height whose facing rows have one width, as `merge` always passes them.
   */
  function RowsDiffer(zlow: Grid, zhigh: Grid): (r: bool)
    requires |zlow| == |zhigh|
    requires forall i :: 0 <= i < |zlow| ==> |zlow[i]| == |zhigh[i]|
    ensures r <==> Interlocks(zlow, zhigh)
  {
    if |zlow| == 0 then true
    else if !RowDiffers(zlow[0], zhigh[0]) then false
    else
      var rest := RowsDiffer(zlow[1..], zhigh[1..]);
      assert forall i :: 1 <= i < |zlow| ==> zlow[i] == zlow[1..][i - 1] && zhigh[i] == zhigh[1..][i - 1];
      rest
  }

  /**
   * `merge`: `None` when the top open face of `low` and the bottom open face
   * of `high` do not interlock; otherwise the rows of `high` above its
   * bottom open face. The columns are indexed by the lower face's width, so
   * the two grids must have rows of one width.
   */
  function Merge(low: Grid, high: Grid): (r: Option<Grid>)
    requires SameWidth(low, high)
    ensures r.Some? ==> |r.value| <= |high| && r.value == high[..|r.value|]
  {
    var zlow := OpenBlock(low, true);
    var zhigh := OpenBlock(high, false);
    if |zlow| != |zhigh| then None
    else
      FacesShareWidth(low, high);
      if !RowsDiffer(zlow, zhigh) then None
      else Some(high[..|high| - |zhigh|])
  }

  /** Rows of the two faces `merge` compares have one width. */
  lemma FacesShareWidth(low: Grid, high: Grid)
    requires SameWidth(low, high) && |OpenTop(low)| == |OpenBottom(high)|
    ensures forall i :: 0 <= i < |OpenTop(low)| ==> |OpenTop(low)[i]| == |OpenBottom(high)[i]|
  {
    OpenTopSpec(low);
    OpenBottomSpec(high);
    var t := OpenTop(low);
    var b := OpenBottom(high);
    forall i | 0 <= i < |t|
      ensures |t[i]| == |b[i]|
    {
      assert t[i] == low[i];
      assert b[i] == high[|high| - |b| + i];
    }
  }

  /** `merge` succeeds exactly when the two open faces interlock. */
  lemma MergeSpec(low: Grid, high: Grid)
    requires SameWidth(low, high)
    ensures Merge(low, high).Some? <==> Interlocks(OpenTop(low), OpenBottom(high))
  {
  }

  /** On success `merge` cuts off exactly the bottom open face of `high`. */
  lemma MergeCutsBottom(low: Grid, high: Grid)
    requires SameWidth(low, high)
    ensures Merge(low, high).Some? ==> Merge(low, high).value + OpenBottom(high) == high
  {
    var b := OpenBottom(high);
    OpenBottomSpec(high);
    if Merge(low, high).Some? {
      SplitAt(high, |high| - |b|);
    }
  }

  lemma SplitAt(g: Grid, k: nat)
    requires k <= |g|
    ensures g[..k] + g[k..] == g
  {
  }

  /**
   * What the next block is checked against: when `high` has a solid row,
   * the remainder `merge` returns has the same top open face as `high`.
   */
  lemma MergedKeepsTop(low: Grid, high: Grid, s: nat)
    requires SameWidth(low, high)
    requires s < |high| && !Zeros(high[s])
    ensures Merge(low, high).Some? ==> OpenTop(Merge(low, high).value) == OpenTop(high)
  {
    if Merge(low, high).Some? {
      assert Merge(low, high).value == high[..|high| - |OpenBottom(high)|];
      AboveBottomKeepsTop(high, s);
    }
  }

  /**
   * When every row of `high` holds a 0, nothing of it is left for the next
   * block to be checked against: its top open face is then empty.
   */
  lemma MergedAllOpen(low: Grid, high: Grid)
    requires SameWidth(low, high) && Merge(low, high).Some?
    requires forall s :: 0 <= s < |high| ==> Zeros(high[s])
    ensures Merge(low, high).value == []
  {
    OpenBottomAll(high);
  }

  /** The ground has no rows, so only a block with no bottom open face fits on it, unchanged. */
  lemma GroundFit(high: Grid)
    ensures Merge([], high).Some? <==> OpenBottom(high) == []
    ensures Merge([], high).Some? ==> Merge([], high).value == high
  {
    MergeSpec([], high);
    MergeCutsBottom([], high);
  }

  /**
   * Grids that are all open face, of any heights, fit exactly when they
   * interlock; grids of different heights never do.
   */
  lemma OpenGridsFit(low: Grid, high: Grid)
    requires SameWidth(low, high)
    requires OpenTop(low) == low && OpenBottom(high) == high
    ensures Merge(low, high).Some? <==> Interlocks(low, high)
  {
    MergeSpec(low, high);
  }

  /** A grid of one open row is its own open face at both ends. */
  lemma OneOpenRow(g: Grid)
    requires |g| == 1 && Zeros(g[0])
    ensures OpenTop(g) == g && OpenBottom(g) == g
  {
    OpenTopUnique(g, 1);
    OpenBottomUnique(g, 1);
  }

  /** The cells of the one-row example differ column by column. */
  lemma FitExampleCells(low: Grid, high: Grid)
    requires low == [[1, 0, 0]] && high == [[0, 1, 1]]
    ensures Zeros(low[0]) && Zeros(high[0]) && RowsDiffer(low, high)
  {
    assert RowDiffers(low[0], high[0]);
  }

  /** Open faces of one row each whose cells all differ fit (from the repository's tests). */
  lemma FitExample(low: Grid, high: Grid)
    requires low == [[1, 0, 0]] && high == [[0, 1, 1]]
    ensures Merge(low, high).Some?
  {
    FitExampleCells(low, high);
    OneOpenRow(low);
    OneOpenRow(high);
    OpenGridsFit(low, high);
  }

  /** Two grids without rows fit (from the repository's tests). */
  lemma EmptyFitExample()
    ensures Merge([], []).Some?
  {
  }

  /** Faces of equal height with a repeated cell do not fit (from the repository's tests). */
  lemma ClashExample()
    ensures Merge([[1, 0, 1], [1, 0, 1]], [[0, 1, 1], [0, 1, 0]]).None?
  {
    var low := [[1, 0, 1], [1, 0, 1]];
    var high := [[0, 1, 1], [0, 1, 0]];
    assert low[0][1] == 0 && low[1][1] == 0 && high[0][0] == 0 && high[1][0] == 0;
    OpenTopUnique(low, 2);
    OpenBottomUnique(high, 2);
    assert low[0][2] == high[0][2];
  }

  /** Faces of heights 2 and 1 do not fit (from the repository's tests). */
  lemma HeightMismatchExample()
    ensures Merge([[1, 0, 0], [1, 0, 1]], [[0, 1, 0]]).None?
  {
    var low := [[1, 0, 0], [1, 0, 1]];
    var high := [[0, 1, 0]];
    assert low[0][1] == 0 && low[1][1] == 0 && high[0][0] == 0;
    OpenTopUnique(low, 2);
    OpenBottomUnique(high, 1);
  }
}

=== FILE: grids.dfy ===
/**
 * Rectangular 0/1 grids and the per-grid utilities of the block layout solver:
 * the "row has an empty cell" test, extraction of the open face at the top or
 * the bottom of a grid, and the 180-degree rotation.
 *
 * A cell equal to 0 is empty; any other value is solid. Rows are listed top
 * to bottom.
 */
module Grids {

  type Row = seq<int>
  type Grid = seq<Row>

  /** Every row of `g` is as wide as every row of `h`. */
  predicate SameWidth(g: Grid, h: Grid)
  {
    forall i, j :: 0 <= i < |g| && 0 <= j < |h| ==> |g[i]| == |h[j]|
  }

  /** All rows of `g` have width `w`. */
  predicate HasWidth(g: Grid, w: nat)
  {
    forall i :: 0 <= i < |g| ==> |g[i]| == w
  }

  /** Two grids whose rows all have one width have the same width. */
  lemma SharedWidth(g: Grid, h: Grid, w: nat)
    requires HasWidth(g, w) && HasWidth(h, w)
    ensures SameWidth(g, h)
  {
  }

  /** The scan of `zeros`: true as soon as a 0 is met; a row of width zero is solid. */
  function Zeros(line: Row): (r: bool)
    ensures r <==> 0 in line
  {
    if |line| == 0 then false
    else if line[0] == 0 then true
    else
      assert line == [line[0]] + line[1..];
      Zeros(line[1..])
  }

  /** The top-down loop of `openBlock`: rows are taken while each holds a 0. */
  function OpenTop(form: Grid): (r: Grid)
    ensures |r| <= |form| && r == form[..|r|]
  {
    if |form| == 0 || !Zeros(form[0]) then []
    else
      var t := OpenTop(form[1..]);
      assert form[..|t| + 1] == [form[0]] + form[1..][..|t|];
      [form[0]] + t
  }

  /**
   * The bottom-up loop of `openBlock`: rows are taken from the last one
   * upwards while each holds a 0, and are kept in top-to-bottom order.
   */
  function OpenBottom(form: Grid): (r: Grid)
    ensures |r| <= |form|
  {
    if |form| == 0 || !Zeros(form[|form| - 1]) then []
    else OpenBottom(form[..|form| - 1]) + [form[|form| - 1]]
  }

  /** `openBlock`, in the mode the flag selects. */
  function OpenBlock(form: Grid, topToLow: bool): (r: Grid)
    ensures |r| <= |form|
    ensures topToLow ==> r == form[..|r|]
  {
    if topToLow then OpenTop(form) else OpenBottom(form)
  }

  /** The top open face is the longest prefix of the grid whose rows all hold a 0. */
  lemma {:induction false} OpenTopSpec(form: Grid)
    ensures OpenTop(form) == form[..|OpenTop(form)|]
    ensures forall i :: 0 <= i < |OpenTop(form)| ==> Zeros(form[i])
    ensures |OpenTop(form)| < |form| ==> !Zeros(form[|OpenTop(form)|])
  {
    if |form| > 0 && Zeros(form[0]) {
      var rest := form[1..];
      OpenTopSpec(rest);
      var t := OpenTop(rest);
      assert OpenTop(form) == [form[0]] + t;
      assert form[..|t| + 1] == [form[0]] + rest[..|t|];
      assert forall i :: 1 <= i <= |t| ==> form[i] == rest[i - 1];
      assert |t| < |rest| ==> form[|t| + 1] == rest[|t|];
    }
  }

  /**
   * The bottom open face is the longest suffix of the grid whose rows all
   * hold a 0, in the grid's own top-to-bottom order.
   */
  lemma {:induction false} OpenBottomSpec(form: Grid)
    ensures OpenBottom(form) == form[|form| - |OpenBottom(form)|..]
    ensures forall i :: |form| - |OpenBottom(form)| <= i < |form| ==> Zeros(form[i])
    ensures |OpenBottom(form)| < |form| ==> !Zeros(form[|form| - |OpenBottom(form)| - 1])
  {
    var n := |form|;
    if n > 0 && Zeros(form[n - 1]) {
      var init := form[..n - 1];
      OpenBottomSpec(init);
      var b := OpenBottom(init);
      assert OpenBottom(form) == b + [form[n - 1]];
      SuffixSplit(form, |b| + 1);
      assert forall i :: n - 1 - |b| <= i < n - 1 ==> form[i] == init[i];
      assert |b| < |init| ==> form[n - 2 - |b|] == init[n - 2 - |b|];
    }
  }

  /**
   * `openBlock`: with `topToLow` the longest prefix of `form` whose rows all
   * hold a 0, otherwise the longest such suffix; a grid whose outermost row
   * on that side is solid has an empty face.
   */
  lemma OpenBlockSpec(form: Grid, topToLow: bool)
    ensures var r := OpenBlock(form, topToLow);
      && (topToLow ==> r == form[..|r|])
      && (!topToLow ==> r == form[|form| - |r|..])
      && (forall i :: 0 <= i < |r| ==> Zeros(r[i]))
      && (topToLow && |r| < |form| ==> !Zeros(form[|r|]))
      && (!topToLow && |r| < |form| ==> !Zeros(form[|form| - |r| - 1]))
  {
    if topToLow {
      OpenTopSpec(form);
      FaceRowsOpen(form, OpenTop(form), 0);
    } else {
      OpenBottomSpec(form);
      FaceRowsOpen(form, OpenBottom(form), |form| - |OpenBottom(form)|);
    }
  }

  /** A slice of open rows starting at row `s` has only open rows. */
  lemma FaceRowsOpen(form: Grid, face: Grid, s: nat)
    requires s + |face| <= |form| && face == form[s..s + |face|]
    requires forall i :: s <= i < s + |face| ==> Zeros(form[i])
    ensures forall i :: 0 <= i < |face| ==> Zeros(face[i])
  {
    forall i | 0 <= i < |face|
      ensures Zeros(face[i])
    {
      assert face[i] == form[s + i];
    }
  }

  /** Any maximal open prefix is the one `OpenTop` returns. */
  lemma {:induction false} OpenTopUnique(form: Grid, k: nat)
    requires k <= |form|
    requires forall i :: 0 <= i < k ==> Zeros(form[i])
    requires k < |form| ==> !Zeros(form[k])
    ensures OpenTop(form) == form[..k]
  {
    if k > 0 {
      assert Zeros(form[0]);
      OpenTopUnique(form[1..], k - 1);
      assert form[..k] == [form[0]] + form[1..][..k - 1];
    }
  }

  lemma SuffixSplit(form: Grid, k: nat)
    requires 0 < k <= |form|
    ensures form[|form| - k..] == form[..|form| - 1][|form| - k..] + [form[|form| - 1]]
  {
  }

  lemma RowOfPrefix(form: Grid, m: nat, i: nat)
    requires i < m <= |form|
    ensures form[..m][i] == form[i]
  {
  }

  /** Any maximal open suffix is the one `OpenBottom` returns. */
  lemma {:induction false} OpenBottomUnique(form: Grid, k: nat)
    requires k <= |form|
    requires forall i :: |form| - k <= i < |form| ==> Zeros(form[i])
    requires k < |form| ==> !Zeros(form[|form| - k - 1])
    ensures OpenBottom(form) == form[|form| - k..]
    decreases k, 1
  {
    var n := |form|;
    if k > 0 {
      var init := form[..n - 1];
      assert OpenBottom(form) == OpenBottom(init) + [form[n - 1]] by {
        assert Zeros(form[n - 1]);
      }
      OpenBottomOfInit(form, k);
      SuffixSplit(form, k);
    }
  }

  /** The induction step of `OpenBottomUnique`, on the grid without its last row. */
  lemma {:induction false} OpenBottomOfInit(form: Grid, k: nat)
    requires 0 < k <= |form|
    requires forall i :: |form| - k <= i < |form| ==> Zeros(form[i])
    requires k < |form| ==> !Zeros(form[|form| - k - 1])
    ensures OpenBottom(form[..|form| - 1]) == form[..|form| - 1][|form| - k..]
    decreases k, 0
  {
    var n := |form|;
    var init := form[..n - 1];
    forall i | |init| - (k - 1) <= i < |init|
      ensures Zeros(init[i])
    {
      RowOfPrefix(form, n - 1, i);
    }
    if k < n {
      RowOfPrefix(form, n - 1, n - k - 1);
    }
    OpenBottomUnique(init, k - 1);
  }

  /** The top open face ends above any solid row. */
  lemma {:induction false} OpenTopBeforeSolid(form: Grid, s: nat)
    requires s < |form| && !Zeros(form[s])
    ensures |OpenTop(form)| <= s
  {
    if s > 0 && Zeros(form[0]) {
      assert form[1..][s - 1] == form[s];
      OpenTopBeforeSolid(form[1..], s - 1);
    }
  }

  /** Cutting rows off the bottom, below the top open face, keeps that face. */
  lemma OpenTopOfPrefix(form: Grid, k: nat)
    requires |OpenTop(form)| < k <= |form|
    ensures OpenTop(form[..k]) == OpenTop(form)
  {
    OpenTopSpec(form);
    var t := OpenTop(form);
    var m := form[..k];
    forall i | 0 <= i < |t|
      ensures Zeros(m[i])
    {
      assert m[i] == t[i];
    }
    assert m[|t|] == form[|t|];
    OpenTopUnique(m, |t|);
  }

  /** With a solid row, the rows above the bottom open face have the grid's top open face. */
  lemma AboveBottomKeepsTop(form: Grid, s: nat)
    requires s < |form| && !Zeros(form[s])
    ensures OpenTop(form[..|form| - |OpenBottom(form)|]) == OpenTop(form)
  {
    var k := |form| - |OpenBottom(form)|;
    OpenBottomSpec(form);
    assert k > s;
    OpenTopBeforeSolid(form, k - 1);
    OpenTopOfPrefix(form, k);
  }

  /** The bottom open face is the whole grid exactly when every row is open. */
  lemma OpenBottomAll(form: Grid)
    ensures |OpenBottom(form)| == |form| <==> forall i :: 0 <= i < |form| ==> Zeros(form[i])
  {
    OpenBottomSpec(form);
    var b := OpenBottom(form);
    if |b| == |form| {
      forall i | 0 <= i < |form|
        ensures Zeros(form[i])
      {
        assert b[i] == form[i];
      }
    }
    if forall i :: 0 <= i < |form| ==> Zeros(form[i]) {
      OpenBottomUnique(form, |form|);
    }
  }

  /** A grid with no open row has empty open faces at both ends. */
  lemma SolidHasNoOpenFace(form: Grid)
    requires forall i :: 0 <= i < |form| ==> !Zeros(form[i])
    ensures OpenBlock(form, true) == [] && OpenBlock(form, false) == []
  {
    OpenTopUnique(form, 0);
    OpenBottomUnique(form, 0);
  }

  /** The row read right to left. */
  function Reverse(line: Row): (r: Row)
    ensures |r| == |line|
    ensures forall j :: 0 <= j < |line| ==> r[j] == line[|line| - 1 - j]
  {
    if |line| == 0 then [] else Reverse(line[1..]) + [line[0]]
  }

  /** The point reflection of a grid: rows reversed, and each row reversed. */
  function Reflect(form: Grid): (r: Grid)
    ensures |r| == |form|
    ensures forall i :: 0 <= i < |form| ==> r[i] == Reverse(form[|form| - 1 - i])
  {
    if |form| == 0 then [] else Reflect(form[1..]) + [Reverse(form[0])]
  }

  /**
   * `rotate`: the 180-degree rotation. The width is taken from the first row,
   * so the grid needs at least one row, and every row must have that width.
   */
  function Rotate(form: Grid): (r: Grid)
    requires |form| >= 1 && HasWidth(form, |form[0]|)
    ensures |r| == |form| && HasWidth(r, |form[0]|)
    ensures forall i, j :: 0 <= i < |form| && 0 <= j < |form[0]| ==>
              r[|form| - 1 - i][|form[0]| - 1 - j] == form[i][j]
  {
    Reflect(form)
  }

  lemma {:induction false} ReverseTwice(line: Row)
    ensures Reverse(Reverse(line)) == line
  {
    var r := Reverse(Reverse(line));
    assert forall j :: 0 <= j < |line| ==> r[j] == line[j];
  }

  lemma {:induction false} ReflectTwice(form: Grid)
    ensures Reflect(Reflect(form)) == form
  {
    var r := Reflect(Reflect(form));
    forall i | 0 <= i < |form|
      ensures r[i] == form[i]
    {
      ReverseTwice(form[i]);
    }
  }

  /**
   * The index formula pins the rotation down: a grid of the same shape that
   * holds `form[i][j]` at `[l-1-i][w-1-j]` for every cell is `Rotate(form)`.
   */
  lemma RotateByCells(form: Grid, r: Grid)
    requires |form| >= 1 && HasWidth(form, |form[0]|)
    requires |r| == |form| && HasWidth(r, |form[0]|)
    requires forall i, j :: 0 <= i < |form| && 0 <= j < |form[0]| ==> r[|form| - 1 - i][|form[0]| - 1 - j] == form[i][j]
    ensures Rotate(form) == r
  {
    var rot := Rotate(form);
    forall i | 0 <= i < |form|
      ensures rot[i] == r[i]
    {
      forall j | 0 <= j < |form[0]|
        ensures rot[i][j] == r[i][j]
      {
        assert rot[|form| - 1 - (|form| - 1 - i)][|form[0]| - 1 - (|form[0]| - 1 - j)] == form[|form| - 1 - i][|form[0]| - 1 - j];
      }
    }
  }

  /** Rotating twice gives the original grid back. */
  lemma RotateTwice(form: Grid)
    requires |form| >= 1 && HasWidth(form, |form[0]|)
    ensures Rotate(Rotate(form)) == form
  {
    ReflectTwice(form);
  }

  /** Reversing a row does not change whether it holds a 0. */
  lemma ReverseKeepsZeros(line: Row)
    ensures Zeros(Reverse(line)) == Zeros(line)
  {
    var r := Reverse(line);
    if Zeros(line) {
      var j :| 0 <= j < |line| && line[j] == 0;
      assert r[|line| - 1 - j] == 0;
    }
    if Zeros(r) {
      var j :| 0 <= j < |r| && r[j] == 0;
      assert line[|line| - 1 - j] == 0;
    }
  }

  /** Row `i` of a reflected grid holds a 0 exactly when row `n - 1 - i` of the original does. */
  lemma ReflectKeepsZeros(form: Grid)
    ensures forall i :: 0 <= i < |form| ==> Zeros(Reflect(form)[i]) == Zeros(form[|form| - 1 - i])
  {
    forall i | 0 <= i < |form|
      ensures Zeros(Reflect(form)[i]) == Zeros(form[|form| - 1 - i])
    {
      ReverseKeepsZeros(form[|form| - 1 - i]);
    }
  }

  /** The first `k` rows of a reflected grid are the reflection of its last `k` rows. */
  lemma {:induction false} ReflectOfSuffix(form: Grid, k: nat)
    requires k <= |form|
    ensures Reflect(form)[..k] == Reflect(form[|form| - k..])
  {
    var n := |form|;
    if k == n {
      assert form[n - k..] == form;
    } else {
      var rest := form[1..];
      var r := Reflect(rest);
      assert Reflect(form) == r + [Reverse(form[0])];
      ReflectOfSuffix(rest, k);
      SuffixOfTail(form, k);
      PrefixOfAppend(r, [Reverse(form[0])], k);
    }
  }

  /** A suffix shorter than the grid is also a suffix of the grid without its first row. */
  lemma SuffixOfTail(form: Grid, k: nat)
    requires k < |form|
    ensures form[1..][|form| - 1 - k..] == form[|form| - k..]
  {
  }

  /** A prefix no longer than the first part of a concatenation lies in that part. */
  lemma PrefixOfAppend(a: Grid, b: Grid, k: nat)
    requires k <= |a|
    ensures (a + b)[..k] == a[..k]
  {
  }

  /** The top open face of a reflected grid is the reflected bottom open face. */
  lemma OpenTopOfReflect(form: Grid)
    ensures OpenTop(Reflect(form)) == Reflect(OpenBottom(form))
  {
    OpenBottomSpec(form);
    ReflectKeepsZeros(form);
    var n, k := |form|, |OpenBottom(form)|;
    var rf := Reflect(form);
    forall i | 0 <= i < k
      ensures Zeros(rf[i])
    {
      assert Zeros(form[n - 1 - i]);
    }
    if k < n {
      assert !Zeros(form[n - 1 - k]);
    }
    OpenTopUnique(rf, k);
    ReflectOfSuffix(form, k);
  }

  /** The bottom open face of a reflected grid is the reflected top open face. */
  lemma OpenBottomOfReflect(form: Grid)
    ensures OpenBottom(Reflect(form)) == Reflect(OpenTop(form))
  {
    ReflectTwice(form);
    OpenTopOfReflect(Reflect(form));
    ReflectTwice(OpenBottom(Reflect(form)));
  }

  /**
   * The open faces of a rotated block are the rotated open faces of the
   * original, with top and bottom exchanged. A face without rows cannot be
   * passed to `Rotate`, so the law is stated with `Reflect`, which is
   * `Rotate` on grids with a row, and with `Rotate` for faces that have one.
   */
  lemma RotateOpenFaces(form: Grid)
    requires |form| >= 1 && HasWidth(form, |form[0]|)
    ensures OpenBlock(Rotate(form), true) == Reflect(OpenBlock(form, false))
    ensures OpenBlock(Rotate(form), false) == Reflect(OpenBlock(form, true))
  {
    OpenTopOfReflect(form);
    OpenBottomOfReflect(form);
  }

  /** Faces that have a row are rotated by `Rotate` itself. */
  lemma RotateOpenFacesWithRows(form: Grid)
    requires |form| >= 1 && HasWidth(form, |form[0]|)
    ensures var b := OpenBlock(form, false);
      |b| >= 1 ==> HasWidth(b, |b[0]|) && OpenBlock(Rotate(form), true) == Rotate(b)
    ensures var t := OpenBlock(form, true);
      |t| >= 1 ==> HasWidth(t, |t[0]|) && OpenBlock(Rotate(form), false) == Rotate(t)
  {
    RotateOpenFaces(form);
    OpenBottomWidth(form);
    OpenTopWidth(form);
  }

  lemma OpenBottomWidth(form: Grid)
    requires |form| >= 1 && HasWidth(form, |form[0]|)
    ensures var b := OpenBottom(form); |b| >= 1 ==> HasWidth(b, |b[0]|)
  {
    OpenBottomSpec(form);
    FaceWidth(form, OpenBottom(form), |form| - |OpenBottom(form)|);
  }

  lemma OpenTopWidth(form: Grid)
    requires |form| >= 1 && HasWidth(form, |form[0]|)
    ensures var t := OpenTop(form); |t| >= 1 ==> HasWidth(t, |t[0]|)
  {
    OpenTopSpec(form);
    assert form[..|OpenTop(form)|] == form[0..0 + |OpenTop(form)|];
    FaceWidth(form, OpenTop(form), 0);
  }

  /** A run of rows of a grid of uniform width has that width. */
  lemma FaceWidth(form: Grid, face: Grid, s: nat)
    requires |form| >= 1 && HasWidth(form, |form[0]|)
    requires s + |face| <= |form| && face == form[s..s + |face|]
    ensures |face| >= 1 ==> HasWidth(face, |face[0]|)
  {
    if |face| >= 1 {
      assert face[0] == form[s];
      forall i | 0 <= i < |face|
        ensures |face[i]| == |face[0]|
      {
        assert face[i] == form[s + i];
      }
    }
  }

  /** The fully solid `openBlock` examples of the repository's tests. */
  lemma SolidOpenBlockExample()
    ensures OpenBlock([[1, 1, 1], [1, 1, 1]], true) == []
    ensures OpenBlock([[1, 1, 1], [1, 1, 1]], false) == []
  {
    SolidHasNoOpenFace([[1, 1, 1], [1, 1, 1]]);
  }

  /** The open bottom `openBlock` example of the repository's tests. */
  lemma OpenBottomExample()
    ensures OpenBlock([[1, 1, 1], [1, 0, 1], [1, 0, 1]], false) == [[1, 0, 1], [1, 0, 1]]
  {
    var f := [[1, 1, 1], [1, 0, 1], [1, 0, 1]];
    assert f[1][1] == 0 && f[2][1] == 0;
    assert !Zeros(f[0]);
    OpenBottomUnique(f, 2);
  }

  /** The open top `openBlock` example of the repository's tests. */
  lemma OpenTopExample()
    ensures OpenBlock([[1, 0, 1], [1, 0, 1], [1, 1, 1]], true) == [[1, 0, 1], [1, 0, 1]]
  {
    var g := [[1, 0, 1], [1, 0, 1], [1, 1, 1]];
    assert g[0][1] == 0 && g[1][1] == 0;
    assert !Zeros(g[2]);
    OpenTopUnique(g, 2);
  }

  /** The first `rotate` example of the repository's tests. */
  lemma RotateSquareExample(form: Grid)
    requires form == [[1, 1], [1, 0]]
    ensures Rotate(form) == [[0, 1], [1, 1]]
  {
    RotateByCells(form, [[0, 1], [1, 1]]);
  }

  /** The second `rotate` example of the repository's tests. */
  lemma RotateWideExample(form: Grid)
    requires form == [[1, 0, 1], [1, 1, 0]]
    ensures Rotate(form) == [[0, 1, 1], [1, 0, 1]]
  {
    RotateByCells(form, [[0, 1, 1], [1, 0, 1]]);
  }
}

=== FILE: search.dfy ===
/**
 * The depth-first backtracking search of the block layout solver (`dfs`).
 *
 * The search threads the set of used block ids through every call and hands
 * it back: an id is added before descending and deleted again when the
 * descent fails, so a failed search leaves the set as it found it.
 */
module Search {
  import opened Wrappers
  import opened Grids
  import opened Fit

  /** One orientation of a block. Both orientations of a block carry its id. */
  datatype Candidate = Candidate(id: int, form: Grid, isRotated: bool)

  /** What `dfs` leaves behind: the path it found, if any, and the used-id set. */
  datatype SearchState = SearchState(path: Option<seq<Candidate>>, used: set<int>)

  /** All candidate forms have rows of one width. */
  predicate CommonWidth(cands: seq<Candidate>)
  {
    forall a, b :: 0 <= a < |cands| && 0 <= b < |cands| ==> SameWidth(cands[a].form, cands[b].form)
  }

  /** The running form has the width of every candidate. */
  predicate WidthFits(merged: Grid, cands: seq<Candidate>)
  {
    forall b :: 0 <= b < |cands| ==> SameWidth(merged, cands[b].form)
  }

  /** The ids of a sequence of candidates. */
  function Ids(s: seq<Candidate>): set<int>
  {
    if |s| == 0 then {} else {s[0].id} + Ids(s[1..])
  }

  /**
   * `ext` can be stacked, bottom to top, on the running form `merged`: its
   * first element is a candidate whose id is not in `used` and that the fit
   * check accepts against `merged`; the rest stacks on what the fit check
   * leaves, with that id used.
   */
  predicate Extension(cands: seq<Candidate>, used: set<int>, merged: Grid, ext: seq<Candidate>)
    decreases |ext|
  {
    || |ext| == 0
    || (&& ext[0] in cands
        && ext[0].id !in used
        && SameWidth(merged, ext[0].form)
        && Merge(merged, ext[0].form).Some?
        && Extension(cands, used + {ext[0].id}, Merge(merged, ext[0].form).value, ext[1..]))
  }

  /** No extension of length `n` from this state starts with any of `cands[lo..hi]`. */
  ghost predicate NoneStartIn(cands: seq<Candidate>, used: set<int>, merged: Grid, n: nat, lo: nat, hi: nat)
    requires lo <= hi <= |cands|
  {
    forall e :: n > 0 && |e| == n && Extension(cands, used, merged, e) ==> e[0] !in cands[lo..hi]
  }

  /**
   * `ext` starts with `cands[j]` for some `j >= lo`, and no extension of its
   * length starts with any candidate in between: its first step is the first
   * of `cands[lo..]` that leads anywhere.
   */
  ghost predicate FirstFrom(cands: seq<Candidate>, used: set<int>, merged: Grid, lo: nat, ext: seq<Candidate>)
    requires |ext| > 0 && lo <= |cands|
  {
    exists j :: lo <= j < |cands| && ext[0] == cands[j] && NoneStartIn(cands, used, merged, |ext|, lo, j)
  }

  /**
   * Every step of `ext` takes the first candidate, in list order, from which
   * a stack of the remaining length exists: the extension that a search
   * trying the candidates in order, and backtracking on failure, finds.
   */
  ghost predicate Leftmost(cands: seq<Candidate>, used: set<int>, merged: Grid, ext: seq<Candidate>)
    decreases |ext|, 1
  {
    || |ext| == 0
    || (FirstFrom(cands, used, merged, 0, ext) && LeftmostAbove(cands, used, merged, ext))
  }

  /** Above its first step, `ext` continues with the leftmost extension. */
  ghost predicate LeftmostAbove(cands: seq<Candidate>, used: set<int>, merged: Grid, ext: seq<Candidate>)
    requires |ext| > 0
    decreases |ext|, 0
  {
    SameWidth(merged, ext[0].form) && Merge(merged, ext[0].form).Some? ==>
      Leftmost(cands, used + {ext[0].id}, Merge(merged, ext[0].form).value, ext[1..])
  }

  /** Whatever the fit check leaves of a candidate still has the candidates' width. */
  lemma MergedWidthFits(merged: Grid, cands: seq<Candidate>, k: nat)
    requires k < |cands| && CommonWidth(cands) && WidthFits(merged, cands)
    requires Merge(merged, cands[k].form).Some?
    ensures WidthFits(Merge(merged, cands[k].form).value, cands)
  {
    var m := Merge(merged, cands[k].form).value;
    var f := cands[k].form;
    assert m == f[..|m|];
    forall b | 0 <= b < |cands|
      ensures SameWidth(m, cands[b].form)
    {
      assert SameWidth(f, cands[b].form);
      forall i, j | 0 <= i < |m| && 0 <= j < |cands[b].form|
        ensures |m[i]| == |cands[b].form[j]|
      {
        assert m[i] == f[i];
      }
    }
  }

  /** Putting a candidate that fits in front of an extension above it gives an extension. */
  lemma ExtendStep(cands: seq<Candidate>, used: set<int>, merged: Grid, c: Candidate, rest: seq<Candidate>)
    requires c in cands && c.id !in used && SameWidth(merged, c.form)
    requires Merge(merged, c.form).Some?
    requires Extension(cands, used + {c.id}, Merge(merged, c.form).value, rest)
    ensures Extension(cands, used, merged, [c] + rest)
  {
    var ext := [c] + rest;
    assert ext[0] == c && ext[1..] == rest;
  }

  lemma IdsCons(c: Candidate, rest: seq<Candidate>)
    ensures Ids([c] + rest) == {c.id} + Ids(rest)
  {
    assert ([c] + rest)[1..] == rest;
  }

  /**
   * `dfs`: with `remaining` blocks still to place, either extends `path` by
   * exactly `remaining` candidates that stack on `merged` — and reports their
   * ids as used — or, when no such extension exists, fails and hands `used`
   * back unchanged.
   */
  function Dfs(remaining: nat, cands: seq<Candidate>, used: set<int>, path: seq<Candidate>, merged: Grid): (r: SearchState)
    requires CommonWidth(cands) && WidthFits(merged, cands)
    ensures r.path.Some? ==> |r.path.value| == |path| + remaining && r.path.value[..|path|] == path
    ensures r.path.Some? ==> Extension(cands, used, merged, r.path.value[|path|..])
    ensures r.path.Some? ==> r.used == used + Ids(r.path.value[|path|..])
    ensures r.path.None? ==> r.used == used
    ensures r.path.Some? ==> Leftmost(cands, used, merged, r.path.value[|path|..])
    ensures r.path.None? ==> forall ext :: |ext| == remaining ==> !Extension(cands, used, merged, ext)
    decreases remaining, |cands| + 1
  {
    if remaining == 0 then
      assert path[|path|..] == [];
      SearchState(Some(path), used)
    else
      Try(remaining, cands, 0, used, path, merged)
  }

  /**
   * The loop of `dfs` from candidate `k` on. On failure no extension of the
   * required length starts with any of `cands[k..]`.
   */
  function Try(remaining: nat, cands: seq<Candidate>, k: nat, used: set<int>, path: seq<Candidate>, merged: Grid): (r: SearchState)
    requires remaining > 0 && k <= |cands|
    requires CommonWidth(cands) && WidthFits(merged, cands)
    ensures r.path.Some? ==> |r.path.value| == |path| + remaining && r.path.value[..|path|] == path
    ensures r.path.Some? ==> Extension(cands, used, merged, r.path.value[|path|..])
    ensures r.path.Some? ==> r.used == used + Ids(r.path.value[|path|..])
    ensures r.path.None? ==> r.used == used
    ensures r.path.Some? ==> FirstFrom(cands, used, merged, k, r.path.value[|path|..])
    ensures r.path.Some? ==> LeftmostAbove(cands, used, merged, r.path.value[|path|..])
    ensures r.path.None? ==> forall ext :: |ext| == remaining && Extension(cands, used, merged, ext) ==> ext[0] !in cands[k..]
    decreases remaining, |cands| - k
  {
    if k == |cands| then SearchState(None, used)
    else
      var attempt := Attempt(remaining, cands, k, used, path, merged);
      if attempt.path.Some? then
        FirstAt(cands, used, merged, k, attempt.path.value[|path|..]);
        attempt
      else
        var r := Try(remaining, cands, k + 1, attempt.used, path, merged);
        if r.path.None? then
          ExcludeNext(remaining, cands, k, used, merged);
          r
        else
          FirstFromEarlier(cands, used, merged, k, r.path.value[|path|..]);
          r
  }

  /**
   * One pass of the loop of `dfs`, for candidate `k`: when its id is unused
   * and it fits, mark the id, descend, and on failure delete the id again.
   * On failure no extension of the required length starts with candidate `k`.
   */
  function Attempt(remaining: nat, cands: seq<Candidate>, k: nat, used: set<int>, path: seq<Candidate>, merged: Grid): (r: SearchState)
    requires remaining > 0 && k < |cands|
    requires CommonWidth(cands) && WidthFits(merged, cands)
    ensures r.path.Some? ==> |r.path.value| == |path| + remaining && r.path.value[..|path|] == path
    ensures r.path.Some? ==> Extension(cands, used, merged, r.path.value[|path|..])
    ensures r.path.Some? ==> r.used == used + Ids(r.path.value[|path|..])
    ensures r.path.None? ==> r.used == used
    ensures r.path.Some? ==> r.path.value[|path|] == cands[k]
    ensures r.path.Some? ==> LeftmostAbove(cands, used, merged, r.path.value[|path|..])
    ensures r.path.None? ==> forall ext :: |ext| == remaining && Extension(cands, used, merged, ext) ==> ext[0] != cands[k]
    decreases remaining, 0
  {
    var c := cands[k];
    if c.id in used || Merge(merged, c.form).None? then
      NotFirst(remaining, cands, used, merged, c);
      SearchState(None, used)
    else
      var m := Merge(merged, c.form).value;
      MergedWidthFits(merged, cands, k);
      var sub := Dfs(remaining - 1, cands, used + {c.id}, path + [c], m);
      if sub.path.Some? then
        FoundAfter(cands, used, merged, path, c, sub.path.value);
        FoundLeftmost(cands, used, merged, path, c, sub.path.value);
        sub
      else
        NotFirst(remaining, cands, used, merged, c);
        SearchState(None, sub.used - {c.id})
  }

  /**
   * A candidate whose id is used, that does not fit, or above which nothing
   * of the right length stacks, starts no extension.
   */
  lemma NotFirst(remaining: nat, cands: seq<Candidate>, used: set<int>, merged: Grid, c: Candidate)
    requires remaining > 0 && SameWidth(merged, c.form)
    requires || c.id in used
             || Merge(merged, c.form).None?
             || forall ext :: |ext| == remaining - 1 ==> !Extension(cands, used + {c.id}, Merge(merged, c.form).value, ext)
    ensures forall ext :: |ext| == remaining && Extension(cands, used, merged, ext) ==> ext[0] != c
  {
    forall ext | |ext| == remaining && Extension(cands, used, merged, ext)
      ensures ext[0] != c
    {
      ExtensionTail(cands, used, merged, ext);
    }
  }

  /** The first step of a non-empty extension, and the extension above it. */
  lemma ExtensionTail(cands: seq<Candidate>, used: set<int>, merged: Grid, ext: seq<Candidate>)
    requires |ext| > 0 && Extension(cands, used, merged, ext)
    ensures ext[0] in cands && ext[0].id !in used && SameWidth(merged, ext[0].form)
    ensures Merge(merged, ext[0].form).Some?
    ensures Extension(cands, used + {ext[0].id}, Merge(merged, ext[0].form).value, ext[1..])
  {
  }

  /** Ruling out candidate `k` and everything after it rules out `cands[k..]`. */
  lemma ExcludeNext(remaining: nat, cands: seq<Candidate>, k: nat, used: set<int>, merged: Grid)
    requires remaining > 0 && k < |cands|
    requires forall ext :: |ext| == remaining && Extension(cands, used, merged, ext) ==> ext[0] != cands[k]
    requires forall ext :: |ext| == remaining && Extension(cands, used, merged, ext) ==> ext[0] !in cands[k + 1..]
    ensures forall ext :: |ext| == remaining && Extension(cands, used, merged, ext) ==> ext[0] !in cands[k..]
  {
    assert cands[k..] == [cands[k]] + cands[k + 1..];
  }

  /** A path found above candidate `c` makes `c` plus that path an extension. */
  lemma FoundAfter(cands: seq<Candidate>, used: set<int>, merged: Grid, path: seq<Candidate>, c: Candidate, p: seq<Candidate>)
    requires c in cands && c.id !in used && SameWidth(merged, c.form)
    requires Merge(merged, c.form).Some?
    requires |p| >= |path| + 1 && p[..|path| + 1] == path + [c]
    requires Extension(cands, used + {c.id}, Merge(merged, c.form).value, p[|path| + 1..])
    ensures p[..|path|] == path
    ensures Extension(cands, used, merged, p[|path|..])
    ensures Ids(p[|path|..]) == {c.id} + Ids(p[|path| + 1..])
  {
    assert p[..|path|] == p[..|path| + 1][..|path|];
    assert p[|path|..] == [c] + p[|path| + 1..];
    ExtendStep(cands, used, merged, c, p[|path| + 1..]);
    IdsCons(c, p[|path| + 1..]);
  }

  /** A path found above candidate `c`, leftmost itself, makes `c` plus that path leftmost above `c`. */
  lemma FoundLeftmost(cands: seq<Candidate>, used: set<int>, merged: Grid, path: seq<Candidate>, c: Candidate, p: seq<Candidate>)
    requires SameWidth(merged, c.form) && Merge(merged, c.form).Some?
    requires |p| >= |path| + 1 && p[..|path| + 1] == path + [c]
    requires Leftmost(cands, used + {c.id}, Merge(merged, c.form).value, p[|path| + 1..])
    ensures p[|path|] == c
    ensures LeftmostAbove(cands, used, merged, p[|path|..])
  {
    assert p[|path|] == p[..|path| + 1][|path|];
    assert p[|path|..][1..] == p[|path| + 1..];
  }

  /** An extension starting with `cands[k]` starts with the first of `cands[k..]` that leads anywhere. */
  lemma FirstAt(cands: seq<Candidate>, used: set<int>, merged: Grid, k: nat, ext: seq<Candidate>)
    requires k < |cands| && |ext| > 0 && ext[0] == cands[k]
    ensures FirstFrom(cands, used, merged, k, ext)
  {
    assert NoneStartIn(cands, used, merged, |ext|, k, k);
  }

  /** When nothing starts with `cands[k]`, the first of `cands[k + 1..]` that leads anywhere is also the first of `cands[k..]`. */
  lemma FirstFromEarlier(cands: seq<Candidate>, used: set<int>, merged: Grid, k: nat, ext: seq<Candidate>)
    requires k < |cands| && |ext| > 0
    requires FirstFrom(cands, used, merged, k + 1, ext)
    requires forall e :: |e| == |ext| && Extension(cands, used, merged, e) ==> e[0] != cands[k]
    ensures FirstFrom(cands, used, merged, k, ext)
  {
    var j :| k + 1 <= j < |cands| && ext[0] == cands[j] && NoneStartIn(cands, used, merged, |ext|, k + 1, j);
    assert cands[k..j] == [cands[k]] + cands[k + 1..j];
    assert NoneStartIn(cands, used, merged, |ext|, k, j);
  }

  /**
   * There is only one leftmost extension of a given length: the stack the
   * search returns is determined by the candidate order.
   */
  lemma {:induction false} LeftmostUnique(cands: seq<Candidate>, used: set<int>, merged: Grid, e1: seq<Candidate>, e2: seq<Candidate>)
    requires |e1| == |e2|
    requires Extension(cands, used, merged, e1) && Leftmost(cands, used, merged, e1)
    requires Extension(cands, used, merged, e2) && Leftmost(cands, used, merged, e2)
    ensures e1 == e2
    decreases |e1|
  {
    if |e1| > 0 {
      SameFirst(cands, used, merged, e1, e2);
      var c := e1[0];
      ExtensionTail(cands, used, merged, e1);
      ExtensionTail(cands, used, merged, e2);
      var m := Merge(merged, c.form).value;
      assert Leftmost(cands, used + {c.id}, m, e1[1..]);
      assert Leftmost(cands, used + {c.id}, m, e2[1..]);
      LeftmostUnique(cands, used + {c.id}, m, e1[1..], e2[1..]);
      assert e1 == [c] + e1[1..];
      assert e2 == [c] + e2[1..];
    }
  }

  /** Two extensions of one length that both take the first candidate leading anywhere start alike. */
  lemma SameFirst(cands: seq<Candidate>, used: set<int>, merged: Grid, e1: seq<Candidate>, e2: seq<Candidate>)
    requires |e1| == |e2| > 0
    requires Extension(cands, used, merged, e1) && FirstFrom(cands, used, merged, 0, e1)
    requires Extension(cands, used, merged, e2) && FirstFrom(cands, used, merged, 0, e2)
    ensures e1[0] == e2[0]
  {
    var j1 :| 0 <= j1 < |cands| && e1[0] == cands[j1] && NoneStartIn(cands, used, merged, |e1|, 0, j1);
    var j2 :| 0 <= j2 < |cands| && e2[0] == cands[j2] && NoneStartIn(cands, used, merged, |e2|, 0, j2);
    assert forall i :: 0 <= i < j2 ==> cands[i] in cands[0..j2];
    assert forall i :: 0 <= i < j1 ==> cands[i] in cands[0..j1];
    assert j1 == j2;
  }

  /** An extension uses candidates only, each block at most once, and no block already used. */
  lemma {:induction false} ExtensionFacts(cands: seq<Candidate>, used: set<int>, merged: Grid, ext: seq<Candidate>)
    requires Extension(cands, used, merged, ext)
    ensures forall k :: 0 <= k < |ext| ==> ext[k] in cands && ext[k].id !in used
    ensures forall a, b :: 0 <= a < b < |ext| ==> ext[a].id != ext[b].id
    ensures Ids(ext) !! used
    decreases |ext|
  {
    if |ext| > 0 {
      var m := Merge(merged, ext[0].form).value;
      var rest := ext[1..];
      ExtensionFacts(cands, used + {ext[0].id}, m, rest);
      forall k | 1 <= k < |ext|
        ensures ext[k] in cands && ext[k].id !in used && ext[k].id != ext[0].id
      {
        assert ext[k] == rest[k - 1];
      }
    }
  }

  /** The ground has no rows: the first candidate of an extension from it has no bottom open face. */
  lemma GroundCondition(cands: seq<Candidate>, used: set<int>, ext: seq<Candidate>)
    requires |ext| > 0 && Extension(cands, used, [], ext)
    ensures OpenBottom(ext[0].form) == []
  {
    GroundFit(ext[0].form);
  }
}

=== FILE: stacking.dfy ===
/**
 * The entry point of the block layout solver (`Layout`): every block is
 * offered as it is and rotated by 180 degrees, the search stacks all of them
 * on an empty ground, and the path found is numbered bottom to top.
 */
module Stacking {
  import opened Wrappers
  import opened Grids
  import opened Fit
  import opened Search

  /** An input block: its id and its grid, rows top to bottom. */
  datatype Block = Block(id: int, form: Grid)

  /** One entry of the answer: which block sits at `position` (1 is the bottom), and how it is turned. */
  datatype LayoutResult = LayoutResult(blockId: int, position: int, isRotated: bool)

  /**
   * What the solver assumes of its input: every grid has a row (the
   * rotation reads the first one), all rows of all grids have one width
   * (the fit check indexes one grid's rows by the other's width), and the
   * ids are distinct.
   */
  predicate ValidBlocks(blocks: seq<Block>)
  {
    && (forall b :: 0 <= b < |blocks| ==> |blocks[b].form| >= 1 && HasWidth(blocks[b].form, Width(blocks)))
    && (forall a, b :: 0 <= a < b < |blocks| ==> blocks[a].id != blocks[b].id)
  }

  /** The row width of the first block, which all blocks share. */
  function Width(blocks: seq<Block>): nat
  {
    if |blocks| == 0 || |blocks[0].form| == 0 then 0 else |blocks[0].form[0]|
  }

  /** The grid of a block in the chosen orientation. */
  function Oriented(b: Block, rotated: bool): (r: Grid)
    requires |b.form| >= 1 && HasWidth(b.form, |b.form[0]|)
    ensures |r| == |b.form| && HasWidth(r, |b.form[0]|)
  {
    if rotated then Rotate(b.form) else b.form
  }

  /**
   * The candidates `Layout` searches: all blocks as they are, in input
   * order, then all blocks rotated, in input order; both orientations of a
   * block carry its id.
   */
  function Candidates(blocks: seq<Block>): (r: seq<Candidate>)
    requires ValidBlocks(blocks)
    ensures |r| == 2 * |blocks|
    ensures forall i :: 0 <= i < |blocks| ==> r[i] == Candidate(blocks[i].id, Oriented(blocks[i], false), false)
    ensures forall i :: 0 <= i < |blocks| ==> r[|blocks| + i] == Candidate(blocks[i].id, Oriented(blocks[i], true), true)
  {
    var originals := seq(|blocks|, i requires 0 <= i < |blocks| && ValidBlocks(blocks) =>
      Candidate(blocks[i].id, Oriented(blocks[i], false), false));
    var rotations := seq(|blocks|, i requires 0 <= i < |blocks| && ValidBlocks(blocks) =>
      Candidate(blocks[i].id, Oriented(blocks[i], true), true));
    originals + rotations
  }

  /** Every candidate is one orientation of one of the blocks. */
  lemma CandidateOfBlock(blocks: seq<Block>, c: Candidate)
    requires ValidBlocks(blocks) && c in Candidates(blocks)
    ensures exists b :: 0 <= b < |blocks| && blocks[b].id == c.id && c.form == Oriented(blocks[b], c.isRotated)
  {
    var cands := Candidates(blocks);
    var k :| 0 <= k < |cands| && cands[k] == c;
    if k < |blocks| {
      CandidateAt(blocks, k, false);
    } else {
      CandidateAt(blocks, k - |blocks|, true);
    }
  }

  /** The candidate for block `b` in one orientation, field by field. */
  lemma CandidateAt(blocks: seq<Block>, b: nat, rotated: bool)
    requires ValidBlocks(blocks) && b < |blocks|
    ensures var c := Candidates(blocks)[if rotated then |blocks| + b else b];
      c.id == blocks[b].id && c.isRotated == rotated && c.form == Oriented(blocks[b], rotated)
  {
  }

  /** All candidate grids, rotated ones included, have rows of one width. */
  lemma CandidatesCommonWidth(blocks: seq<Block>)
    requires ValidBlocks(blocks)
    ensures CommonWidth(Candidates(blocks))
  {
    var cands := Candidates(blocks);
    var w := Width(blocks);
    forall k | 0 <= k < |cands|
      ensures HasWidth(cands[k].form, w)
    {
      var b := if k < |blocks| then k else k - |blocks|;
      OrientedWidth(blocks, b, k >= |blocks|);
      assert cands[k].form == Oriented(blocks[b], k >= |blocks|);
    }
    forall a, b | 0 <= a < |cands| && 0 <= b < |cands|
      ensures SameWidth(cands[a].form, cands[b].form)
    {
      SharedWidth(cands[a].form, cands[b].form, w);
    }
  }

  lemma OrientedWidth(blocks: seq<Block>, b: nat, rotated: bool)
    requires ValidBlocks(blocks) && b < |blocks|
    ensures HasWidth(Oriented(blocks[b], rotated), Width(blocks))
  {
    assert |blocks[b].form[0]| == Width(blocks);
  }

  /** The numbering loop of `Layout`: entry `i` of the path gets position `i + 1`. */
  function Number(path: seq<Candidate>): (r: seq<LayoutResult>)
    ensures |r| == |path|
    ensures forall i :: 0 <= i < |path| ==> r[i] == LayoutResult(path[i].id, i + 1, path[i].isRotated)
  {
    seq(|path|, i requires 0 <= i < |path| => LayoutResult(path[i].id, i + 1, path[i].isRotated))
  }

  /**
   * `Layout`: an empty answer for no blocks; otherwise the numbered
   * leftmost stack of all blocks, each once, on the empty ground, that is,
   * the first one the search reaches in candidate order; or `None` (where
   * the source panics) exactly when no stack exists.
   */
  function Layout(blocks: seq<Block>): (r: Option<seq<LayoutResult>>)
    requires ValidBlocks(blocks)
    ensures |blocks| == 0 ==> r == Some([])
    ensures r.Some? ==> |r.value| == |blocks|
    ensures r.Some? ==> forall i :: 0 <= i < |r.value| ==> r.value[i].position == i + 1
    ensures r.Some? ==> exists ext ::
      && |ext| == |blocks|
      && Extension(Candidates(blocks), {}, [], ext)
      && Leftmost(Candidates(blocks), {}, [], ext)
      && r.value == Number(ext)
    ensures r.None? <==> forall ext :: |ext| == |blocks| ==> !Extension(Candidates(blocks), {}, [], ext)
  {
    if |blocks| == 0 then
      assert Extension(Candidates(blocks), {}, [], []);
      Some([])
    else
      var cands := Candidates(blocks);
      CandidatesCommonWidth(blocks);
      var s := Dfs(|blocks|, cands, {}, [], []);
      if s.path.None? then None
      else
        assert s.path.value[0..] == s.path.value;
        Some(Number(s.path.value))
  }

  /**
   * The answer of `Layout` is determined: whenever a stack of all blocks is
   * leftmost in candidate order, `Layout` returns exactly that stack, numbered.
   */
  lemma LayoutIsLeftmostStack(blocks: seq<Block>, ext: seq<Candidate>)
    requires ValidBlocks(blocks) && |ext| == |blocks|
    requires Extension(Candidates(blocks), {}, [], ext) && Leftmost(Candidates(blocks), {}, [], ext)
    ensures Layout(blocks) == Some(Number(ext))
  {
    var cands := Candidates(blocks);
    assert Layout(blocks).Some?;
    var e: seq<Candidate> :| |e| == |blocks| && Extension(cands, {}, [], e) && Leftmost(cands, {}, [], e) && Layout(blocks).value == Number(e);
    LeftmostUnique(cands, {}, [], e, ext);
  }

  /** `x` is the id of one of the blocks. */
  predicate IsBlockId(blocks: seq<Block>, x: int)
  {
    exists b :: 0 <= b < |blocks| && blocks[b].id == x
  }

  /** Some entry of the answer places the block with id `x`. */
  predicate Placed(res: seq<LayoutResult>, x: int)
  {
    exists i :: 0 <= i < |res| && res[i].blockId == x
  }

  /** Some candidate on the path carries id `x`. */
  predicate OnPath(ext: seq<Candidate>, x: int)
  {
    exists i :: 0 <= i < |ext| && ext[i].id == x
  }

  /**
   * A stack `Layout` returns names every block exactly once: its ids are
   * pairwise distinct, each is the id of a block, and each block's id is
   * among them.
   */
  lemma LayoutPlacesEachBlockOnce(blocks: seq<Block>)
    requires ValidBlocks(blocks)
    ensures Layout(blocks).Some? ==> var res := Layout(blocks).value;
      && (forall i, j :: 0 <= i < j < |res| ==> res[i].blockId != res[j].blockId)
      && (forall i :: 0 <= i < |res| ==> IsBlockId(blocks, res[i].blockId))
      && (forall b :: 0 <= b < |blocks| ==> Placed(res, blocks[b].id))
  {
    if Layout(blocks).Some? {
      var cands := Candidates(blocks);
      var ext: seq<Candidate> :| |ext| == |blocks| && Extension(cands, {}, [], ext) && Layout(blocks).value == Number(ext);
      ExtensionFacts(cands, {}, [], ext);
      PathIdsAreBlockIds(blocks, ext);
      CountCovers(blocks, ext);
      NumberKeepsIds(blocks, ext);
    }
  }

  /** The numbering keeps ids in order, so facts about the path's ids carry over. */
  lemma NumberKeepsIds(blocks: seq<Block>, ext: seq<Candidate>)
    requires forall a, b :: 0 <= a < b < |ext| ==> ext[a].id != ext[b].id
    requires forall i :: 0 <= i < |ext| ==> IsBlockId(blocks, ext[i].id)
    requires forall b :: 0 <= b < |blocks| ==> OnPath(ext, blocks[b].id)
    ensures var res := Number(ext);
      && (forall i, j :: 0 <= i < j < |res| ==> res[i].blockId != res[j].blockId)
      && (forall i :: 0 <= i < |res| ==> IsBlockId(blocks, res[i].blockId))
      && (forall b :: 0 <= b < |blocks| ==> Placed(res, blocks[b].id))
  {
    var res := Number(ext);
    forall b | 0 <= b < |blocks|
      ensures Placed(res, blocks[b].id)
    {
      var i :| 0 <= i < |ext| && ext[i].id == blocks[b].id;
      assert res[i].blockId == blocks[b].id;
    }
  }

  /** Every id on a path of candidates is the id of a block. */
  lemma PathIdsAreBlockIds(blocks: seq<Block>, ext: seq<Candidate>)
    requires ValidBlocks(blocks)
    requires forall k :: 0 <= k < |ext| ==> ext[k] in Candidates(blocks)
    ensures forall i :: 0 <= i < |ext| ==> IsBlockId(blocks, ext[i].id)
  {
    forall i | 0 <= i < |ext|
      ensures IsBlockId(blocks, ext[i].id)
    {
      CandidateOfBlock(blocks, ext[i]);
    }
  }

  /** As many distinct ids as blocks, all of them block ids, must include every block id. */
  lemma CountCovers(blocks: seq<Block>, ext: seq<Candidate>)
    requires |ext| == |blocks|
    requires forall a, b :: 0 <= a < b < |blocks| ==> blocks[a].id != blocks[b].id
    requires forall a, b :: 0 <= a < b < |ext| ==> ext[a].id != ext[b].id
    requires forall i :: 0 <= i < |ext| ==> IsBlockId(blocks, ext[i].id)
    ensures forall b :: 0 <= b < |blocks| ==> OnPath(ext, blocks[b].id)
  {
    var placed := set i | 0 <= i < |ext| :: ext[i].id;
    var given := set b | 0 <= b < |blocks| :: blocks[b].id;
    assert placed <= given;
    DistinctCount(ext);
    DistinctBlockCount(blocks);
    SubsetOfEqualSize(placed, given);
    forall b | 0 <= b < |blocks|
      ensures OnPath(ext, blocks[b].id)
    {
      assert blocks[b].id in placed;
    }
  }

  /** Candidates with pairwise distinct ids have as many ids as entries. */
  lemma {:induction false} DistinctCount(path: seq<Candidate>)
    requires forall i, j :: 0 <= i < j < |path| ==> path[i].id != path[j].id
    ensures |set i | 0 <= i < |path| :: path[i].id| == |path|
  {
    if |path| > 0 {
      var init := path[..|path| - 1];
      DistinctCount(init);
      var s := set i | 0 <= i < |path| :: path[i].id;
      var s' := set i | 0 <= i < |init| :: init[i].id;
      assert s == s' + {path[|path| - 1].id};
      assert path[|path| - 1].id !in s';
    }
  }

  /** Blocks with pairwise distinct ids have as many ids as blocks. */
  lemma {:induction false} DistinctBlockCount(blocks: seq<Block>)
    requires forall a, b :: 0 <= a < b < |blocks| ==> blocks[a].id != blocks[b].id
    ensures |set b | 0 <= b < |blocks| :: blocks[b].id| == |blocks|
  {
    if |blocks| > 0 {
      var init := blocks[..|blocks| - 1];
      DistinctBlockCount(init);
      var s := set b | 0 <= b < |blocks| :: blocks[b].id;
      var s' := set b | 0 <= b < |init| :: init[b].id;
      assert s == s' + {blocks[|blocks| - 1].id};
      assert blocks[|blocks| - 1].id !in s';
    }
  }

  lemma SubsetOfEqualSize(a: set<int>, b: set<int>)
    requires a <= b && |a| == |b|
    ensures a == b
  {
    assert |b - a| == |b| - |a|;
  }

  /** The block at the bottom of a stack `Layout` returns has no bottom open face in its orientation. */
  lemma LayoutGround(blocks: seq<Block>)
    requires ValidBlocks(blocks)
    ensures |blocks| > 0 && Layout(blocks).Some? ==> var first := Layout(blocks).value[0];
      exists b :: 0 <= b < |blocks| && blocks[b].id == first.blockId
        && OpenBottom(Oriented(blocks[b], first.isRotated)) == []
  {
    if |blocks| > 0 && Layout(blocks).Some? {
      var cands := Candidates(blocks);
      var ext: seq<Candidate> :| |ext| == |blocks| && Extension(cands, {}, [], ext) && Layout(blocks).value == Number(ext);
      GroundCondition(cands, {}, ext);
      ExtensionFacts(cands, {}, [], ext);
      CandidateOfBlock(blocks, ext[0]);
    }
  }
}

=== FILE: stacking_examples.dfy ===
/**
 * The four `Layout` fixtures of the repository's tests, worked through
 * the search step by step, and one input without a stack.
 *
 * The search steps are proved once over candidates whose fit results are
 * given; the concrete grids only enter through the fit facts.
 */
module StackingExamples {
  import opened Wrappers
  import opened Grids
  import opened Fit
  import opened Search
  import opened Stacking

  /** Numbering a path of candidates keeps their ids and orientations and counts from 1. */
  lemma NumberThree(c0: Candidate, c1: Candidate, c2: Candidate)
    ensures Number([c0, c1, c2]) == [LayoutResult(c0.id, 1, c0.isRotated), LayoutResult(c1.id, 2, c1.isRotated), LayoutResult(c2.id, 3, c2.isRotated)]
  {
  }

  lemma NumberTwo(c0: Candidate, c1: Candidate)
    ensures Number([c0, c1]) == [LayoutResult(c0.id, 1, c0.isRotated), LayoutResult(c1.id, 2, c1.isRotated)]
  {
  }

  // The first fixture: 738 = [[1,0],[1,1]] and 841 = [[1,1],[0,1]].

  /** Block 738 fits on the empty ground and is kept whole. */
  lemma FirstExampleGround(a: Grid)
    requires a == [[1, 0], [1, 1]]
    ensures SameWidth([], a) && Merge([], a) == Some(a)
  {
    assert !Zeros(a[1]);
    GroundFit(a);
  }

  /** Block 841 fits on 738, leaving its solid row. */
  lemma FirstExampleStep(a: Grid, b: Grid)
    requires a == [[1, 0], [1, 1]] && b == [[1, 1], [0, 1]]
    ensures SameWidth(a, b) && Merge(a, b) == Some([[1, 1]])
  {
    assert !Zeros(a[1]) && !Zeros(b[0]);
    assert Zeros(a[0]) && Zeros(b[1]);
    OpenTopUnique(a, 1);
    OpenBottomUnique(b, 1);
    assert RowDiffers(a[0], b[1]);
    assert b[..1] == [[1, 1]];
  }

  /** On the second level of the first example, block 738 is already used and 841 fits on it. */
  lemma FirstExampleUpper(cands: seq<Candidate>, a: Grid, b: Grid)
    requires a == [[1, 0], [1, 1]] && b == [[1, 1], [0, 1]]
    requires |cands| == 4 && cands[0] == Candidate(738, a, false) && cands[1] == Candidate(841, b, false)
    requires CommonWidth(cands) && WidthFits(a, cands)
    ensures Dfs(1, cands, {738}, [cands[0]], a).path == Some([cands[0], cands[1]])
  {
    var c0, c1 := cands[0], cands[1];
    FirstExampleStep(a, b);
    MergedWidthFits(a, cands, 1);
    var top: Grid := [[1, 1]];
    var p1 := [c0] + [c1];
    assert p1 == [c0, c1];
    var u1 := {738} + {841};
    assert Dfs(0, cands, u1, p1, top).path == Some(p1);
    assert Attempt(1, cands, 1, {738}, [c0], a).path == Some(p1);
    assert Attempt(1, cands, 0, {738}, [c0], a).path.None?;
    assert Try(1, cands, 1, {738}, [c0], a).path == Some(p1);
  }

  /** The search on the first example takes block 738, skips it on the next level, and puts 841 on top. */
  lemma FirstExampleSearch(cands: seq<Candidate>, a: Grid, b: Grid)
    requires a == [[1, 0], [1, 1]] && b == [[1, 1], [0, 1]]
    requires |cands| == 4 && cands[0] == Candidate(738, a, false) && cands[1] == Candidate(841, b, false)
    requires CommonWidth(cands)
    ensures WidthFits([], cands) && Dfs(2, cands, {}, [], []).path == Some([cands[0], cands[1]])
  {
    var c0 := cands[0];
    FirstExampleGround(a);
    assert WidthFits(a, cands) by {
      assert forall k :: 0 <= k < |cands| ==> SameWidth(cands[0].form, cands[k].form);
    }
    FirstExampleUpper(cands, a, b);
    var used: set<int> := {};
    assert used + {c0.id} == {738};
    var path: seq<Candidate> := [];
    assert path + [c0] == [c0];
    assert Attempt(2, cands, 0, used, path, []).path == Some([cands[0], cands[1]]);
  }

  /** The blocks of the first example are valid input. */
  lemma FirstExampleValid(blocks: seq<Block>)
    requires blocks == [Block(738, [[1, 0], [1, 1]]), Block(841, [[1, 1], [0, 1]])]
    ensures ValidBlocks(blocks)
  {
    assert Width(blocks) == 2;
  }

  /** The first `Layout` example of the repository's tests: 738 at the bottom, 841 above it, neither rotated. */
  lemma FirstLayoutExample(blocks: seq<Block>)
    requires blocks == [Block(738, [[1, 0], [1, 1]]), Block(841, [[1, 1], [0, 1]])]
    ensures ValidBlocks(blocks)
    ensures Layout(blocks) == Some([LayoutResult(738, 1, false), LayoutResult(841, 2, false)])
  {
    FirstExampleValid(blocks);
    var cands := Candidates(blocks);
    CandidatesCommonWidth(blocks);
    FirstExampleSearch(cands, blocks[0].form, blocks[1].form);
    NumberTwo(cands[0], cands[1]);
  }

  // The second fixture: 443 = [[1,0,1],[1,1,1]],
  // 327 = [[0,1,0],[1,1,1],[1,1,1],[1,1,0],[0,1,0]] and
  // 891 = [[0,0,1],[1,0,1],[1,1,1]]. The candidates are 443, 327, 891 and
  // then the three rotated.

  /** The ids of the six candidates of three blocks with ids `x`, `y` and `z`. */
  predicate BlockIds(cands: seq<Candidate>, x: int, y: int, z: int)
  {
    && |cands| == 6
    && cands[0].id == x && cands[1].id == y && cands[2].id == z
    && cands[3].id == x && cands[4].id == y && cands[5].id == z
  }

  /**
   * Third level of the second example: 443 and 327 are used, 891 as given
   * does not fit and 891 rotated does, so the loop ends on the last candidate.
   */
  lemma SecondExampleTop(cands: seq<Candidate>, path: seq<Candidate>, m: Grid)
    requires BlockIds(cands, 443, 327, 891) && CommonWidth(cands) && WidthFits(m, cands)
    requires Merge(m, cands[2].form).None? && Merge(m, cands[5].form).Some?
    ensures Dfs(1, cands, {443, 327}, path, m).path == Some(path + [cands[5]])
  {
    var used: set<int> := {443, 327};
    MergedWidthFits(m, cands, 5);
    var top := Merge(m, cands[5].form).value;
    var p := path + [cands[5]];
    assert Dfs(0, cands, used + {891}, p, top).path == Some(p);
    assert Attempt(1, cands, 5, used, path, m).path == Some(p);
    assert Try(1, cands, 5, used, path, m).path == Some(p);
    assert Attempt(1, cands, 4, used, path, m).path.None?;
    assert Try(1, cands, 4, used, path, m).path == Some(p);
    assert Attempt(1, cands, 3, used, path, m).path.None?;
    assert Try(1, cands, 3, used, path, m).path == Some(p);
    assert Attempt(1, cands, 2, used, path, m).path.None?;
    assert Try(1, cands, 2, used, path, m).path == Some(p);
    assert Attempt(1, cands, 1, used, path, m).path.None?;
    assert Try(1, cands, 1, used, path, m).path == Some(p);
    assert Attempt(1, cands, 0, used, path, m).path.None?;
  }

  /**
   * Second level of the second example: 443 is used, 327, 891 and 443
   * rotated do not fit, and 327 rotated does.
   */
  lemma SecondExampleMiddle(cands: seq<Candidate>, a: Grid, m: Grid)
    requires BlockIds(cands, 443, 327, 891) && CommonWidth(cands) && WidthFits(a, cands) && WidthFits(m, cands)
    requires Merge(a, cands[1].form).None? && Merge(a, cands[2].form).None? && Merge(a, cands[3].form).None?
    requires Merge(a, cands[4].form) == Some(m)
    requires Merge(m, cands[2].form).None? && Merge(m, cands[5].form).Some?
    ensures Dfs(2, cands, {443}, [cands[0]], a).path == Some([cands[0], cands[4], cands[5]])
  {
    var used: set<int> := {443};
    var path := [cands[0]];
    var p1 := path + [cands[4]];
    assert used + {327} == {443, 327};
    SecondExampleTop(cands, p1, m);
    var p := p1 + [cands[5]];
    assert p == [cands[0], cands[4], cands[5]];
    assert Attempt(2, cands, 4, used, path, a).path == Some(p);
    assert Try(2, cands, 4, used, path, a).path == Some(p);
    assert Attempt(2, cands, 3, used, path, a).path.None?;
    assert Try(2, cands, 3, used, path, a).path == Some(p);
    assert Attempt(2, cands, 2, used, path, a).path.None?;
    assert Try(2, cands, 2, used, path, a).path == Some(p);
    assert Attempt(2, cands, 1, used, path, a).path.None?;
    assert Try(2, cands, 1, used, path, a).path == Some(p);
    assert Attempt(2, cands, 0, used, path, a).path.None?;
  }

  /** First level of the second example: 443 fits on the empty ground and the rest follows. */
  lemma SecondExampleSearch(cands: seq<Candidate>, m: Grid)
    requires BlockIds(cands, 443, 327, 891) && CommonWidth(cands) && WidthFits(cands[0].form, cands) && WidthFits(m, cands)
    requires Merge([], cands[0].form) == Some(cands[0].form)
    requires Merge(cands[0].form, cands[1].form).None? && Merge(cands[0].form, cands[2].form).None?
    requires Merge(cands[0].form, cands[3].form).None? && Merge(cands[0].form, cands[4].form) == Some(m)
    requires Merge(m, cands[2].form).None? && Merge(m, cands[5].form).Some?
    ensures WidthFits([], cands) && Dfs(3, cands, {}, [], []).path == Some([cands[0], cands[4], cands[5]])
  {
    var a := cands[0].form;
    SecondExampleMiddle(cands, a, m);
    var used: set<int> := {};
    assert used + {443} == {443};
    var path: seq<Candidate> := [];
    assert path + [cands[0]] == [cands[0]];
    assert Attempt(3, cands, 0, used, path, []).path == Some([cands[0], cands[4], cands[5]]);
  }

  /** The rotations of the second example's blocks. */
  lemma SecondExampleRotations(a: Grid, b: Grid, c: Grid)
    requires a == [[1, 0, 1], [1, 1, 1]]
    requires b == [[0, 1, 0], [1, 1, 1], [1, 1, 1], [1, 1, 0], [0, 1, 0]]
    requires c == [[0, 0, 1], [1, 0, 1], [1, 1, 1]]
    ensures Rotate(a) == [[1, 1, 1], [1, 0, 1]]
    ensures Rotate(b) == [[0, 1, 0], [0, 1, 1], [1, 1, 1], [1, 1, 1], [0, 1, 0]]
    ensures Rotate(c) == [[1, 1, 1], [1, 0, 1], [1, 0, 0]]
  {
    RotateShortExample(a);
    RotateTallExample(b);
    RotateThreeRowsExample(c);
  }

  lemma RotateShortExample(a: Grid)
    requires a == [[1, 0, 1], [1, 1, 1]]
    ensures Rotate(a) == [[1, 1, 1], [1, 0, 1]]
  {
    RotateByCells(a, [[1, 1, 1], [1, 0, 1]]);
  }

  lemma RotateTallExample(b: Grid)
    requires b == [[0, 1, 0], [1, 1, 1], [1, 1, 1], [1, 1, 0], [0, 1, 0]]
    ensures Rotate(b) == [[0, 1, 0], [0, 1, 1], [1, 1, 1], [1, 1, 1], [0, 1, 0]]
  {
    RotateByCells(b, [[0, 1, 0], [0, 1, 1], [1, 1, 1], [1, 1, 1], [0, 1, 0]]);
  }

  lemma RotateThreeRowsExample(c: Grid)
    requires c == [[0, 0, 1], [1, 0, 1], [1, 1, 1]]
    ensures Rotate(c) == [[1, 1, 1], [1, 0, 1], [1, 0, 0]]
  {
    RotateByCells(c, [[1, 1, 1], [1, 0, 1], [1, 0, 0]]);
  }

  /** A single empty cell is its own rotation. */
  lemma RotateCellExample(c: Grid)
    requires c == [[0]]
    ensures Rotate(c) == [[0]]
  {
    RotateByCells(c, [[0]]);
  }

  /** 443 fits on the empty ground and is kept whole. */
  lemma SecondExampleGround(a: Grid)
    requires a == [[1, 0, 1], [1, 1, 1]]
    ensures SameWidth([], a) && Merge([], a) == Some(a)
  {
    assert !Zeros(a[1]);
    GroundFit(a);
  }

  /** The top open face of 443 is its first row. */
  lemma SecondExampleTopOf443(a: Grid)
    requires a == [[1, 0, 1], [1, 1, 1]]
    ensures OpenTop(a) == [[1, 0, 1]]
  {
    assert Zeros(a[0]) && !Zeros(a[1]);
    OpenTopUnique(a, 1);
  }

  /** 327 as given has a bottom open face of two rows, one more than 443's top face. */
  lemma SecondExampleMiss327(a: Grid, b: Grid)
    requires a == [[1, 0, 1], [1, 1, 1]]
    requires b == [[0, 1, 0], [1, 1, 1], [1, 1, 1], [1, 1, 0], [0, 1, 0]]
    ensures SameWidth(a, b) && Merge(a, b).None?
  {
    SecondExampleTopOf443(a);
    assert Zeros(b[4]) && Zeros(b[3]) && !Zeros(b[2]);
    OpenBottomUnique(b, 2);
  }

  /** 891 as given is solid at the bottom, while 443's top face has a row. */
  lemma SecondExampleMiss891(g: Grid, c: Grid)
    requires |OpenTop(g)| > 0
    requires c == [[0, 0, 1], [1, 0, 1], [1, 1, 1]]
    requires SameWidth(g, c)
    ensures Merge(g, c).None?
  {
    assert !Zeros(c[2]);
  }

  /** 443 rotated meets 443 with the same row `[1,0,1]`. */
  lemma SecondExampleMiss443Rotated(a: Grid, ra: Grid)
    requires a == [[1, 0, 1], [1, 1, 1]] && ra == [[1, 1, 1], [1, 0, 1]]
    ensures SameWidth(a, ra) && Merge(a, ra).None?
  {
    SecondExampleTopOf443(a);
    assert Zeros(ra[1]) && !Zeros(ra[0]);
    OpenBottomUnique(ra, 1);
    assert a[0][0] == ra[1][0];
  }

  /** 327 rotated fits on 443 and leaves its first four rows. */
  lemma SecondExampleHit327Rotated(a: Grid, rb: Grid)
    requires a == [[1, 0, 1], [1, 1, 1]]
    requires rb == [[0, 1, 0], [0, 1, 1], [1, 1, 1], [1, 1, 1], [0, 1, 0]]
    ensures SameWidth(a, rb) && Merge(a, rb) == Some([[0, 1, 0], [0, 1, 1], [1, 1, 1], [1, 1, 1]])
  {
    SecondExampleTopOf443(a);
    assert Zeros(rb[4]) && !Zeros(rb[3]);
    OpenBottomUnique(rb, 1);
    assert RowDiffers(a[0], rb[4]);
    assert rb[..4] == [[0, 1, 0], [0, 1, 1], [1, 1, 1], [1, 1, 1]];
  }

  /** The top open face of what 327 rotated leaves is its first two rows. */
  lemma SecondExampleTopOfRest(m: Grid)
    requires m == [[0, 1, 0], [0, 1, 1], [1, 1, 1], [1, 1, 1]]
    ensures OpenTop(m) == [[0, 1, 0], [0, 1, 1]]
  {
    assert Zeros(m[0]) && Zeros(m[1]) && !Zeros(m[2]);
    OpenTopUnique(m, 2);
  }

  /** 891 rotated fits on what 327 rotated leaves, and only its solid top row remains. */
  lemma SecondExampleHit891Rotated(m: Grid, rc: Grid)
    requires m == [[0, 1, 0], [0, 1, 1], [1, 1, 1], [1, 1, 1]]
    requires rc == [[1, 1, 1], [1, 0, 1], [1, 0, 0]]
    ensures SameWidth(m, rc) && Merge(m, rc) == Some([[1, 1, 1]])
  {
    SecondExampleTopOfRest(m);
    assert Zeros(rc[2]) && Zeros(rc[1]) && !Zeros(rc[0]);
    OpenBottomUnique(rc, 2);
    assert RowDiffers(m[0], rc[1]) && RowDiffers(m[1], rc[2]);
    assert rc[..1] == [[1, 1, 1]];
  }

  /** The blocks of the second example are valid input. */
  lemma SecondExampleValid(blocks: seq<Block>)
    requires blocks == [
      Block(443, [[1, 0, 1], [1, 1, 1]]),
      Block(327, [[0, 1, 0], [1, 1, 1], [1, 1, 1], [1, 1, 0], [0, 1, 0]]),
      Block(891, [[0, 0, 1], [1, 0, 1], [1, 1, 1]])]
    ensures ValidBlocks(blocks)
  {
    assert Width(blocks) == 3;
  }

  /** The candidates of the second example, rotations worked out. */
  lemma SecondExampleCandidates(blocks: seq<Block>)
    requires blocks == [
      Block(443, [[1, 0, 1], [1, 1, 1]]),
      Block(327, [[0, 1, 0], [1, 1, 1], [1, 1, 1], [1, 1, 0], [0, 1, 0]]),
      Block(891, [[0, 0, 1], [1, 0, 1], [1, 1, 1]])]
    ensures ValidBlocks(blocks)
    ensures var cands := Candidates(blocks);
      && BlockIds(cands, 443, 327, 891)
      && cands[0] == Candidate(443, [[1, 0, 1], [1, 1, 1]], false)
      && cands[1].form == [[0, 1, 0], [1, 1, 1], [1, 1, 1], [1, 1, 0], [0, 1, 0]]
      && cands[2].form == [[0, 0, 1], [1, 0, 1], [1, 1, 1]]
      && cands[3].form == [[1, 1, 1], [1, 0, 1]]
      && cands[4] == Candidate(327, [[0, 1, 0], [0, 1, 1], [1, 1, 1], [1, 1, 1], [0, 1, 0]], true)
      && cands[5] == Candidate(891, [[1, 1, 1], [1, 0, 1], [1, 0, 0]], true)
  {
    SecondExampleValid(blocks);
    SecondExampleRotations(blocks[0].form, blocks[1].form, blocks[2].form);
  }

  /**
   * The second `Layout` example of the repository's tests: 443 at the
   * bottom as given, then 327 rotated, then 891 rotated.
   */
  lemma SecondLayoutExample(blocks: seq<Block>)
    requires blocks == [
      Block(443, [[1, 0, 1], [1, 1, 1]]),
      Block(327, [[0, 1, 0], [1, 1, 1], [1, 1, 1], [1, 1, 0], [0, 1, 0]]),
      Block(891, [[0, 0, 1], [1, 0, 1], [1, 1, 1]])]
    ensures ValidBlocks(blocks)
    ensures Layout(blocks) == Some([LayoutResult(443, 1, false), LayoutResult(327, 2, true), LayoutResult(891, 3, true)])
  {
    SecondExampleCandidates(blocks);
    var cands := Candidates(blocks);
    CandidatesCommonWidth(blocks);
    SecondExampleFits(cands);
    NumberThree(cands[0], cands[4], cands[5]);
  }

  /** The fit facts of the second example, assembled into the search. */
  lemma SecondExampleFits(cands: seq<Candidate>)
    requires BlockIds(cands, 443, 327, 891) && CommonWidth(cands)
    requires cands[0].form == [[1, 0, 1], [1, 1, 1]]
    requires cands[1].form == [[0, 1, 0], [1, 1, 1], [1, 1, 1], [1, 1, 0], [0, 1, 0]]
    requires cands[2].form == [[0, 0, 1], [1, 0, 1], [1, 1, 1]]
    requires cands[3].form == [[1, 1, 1], [1, 0, 1]]
    requires cands[4].form == [[0, 1, 0], [0, 1, 1], [1, 1, 1], [1, 1, 1], [0, 1, 0]]
    requires cands[5].form == [[1, 1, 1], [1, 0, 1], [1, 0, 0]]
    ensures WidthFits([], cands) && Dfs(3, cands, {}, [], []).path == Some([cands[0], cands[4], cands[5]])
  {
    var a := cands[0].form;
    var m: Grid := [[0, 1, 0], [0, 1, 1], [1, 1, 1], [1, 1, 1]];
    SecondExampleGround(a);
    SecondExampleMiss327(a, cands[1].form);
    SecondExampleTopOf443(a);
    assert WidthFits(a, cands) by {
      assert forall k :: 0 <= k < |cands| ==> SameWidth(cands[0].form, cands[k].form);
    }
    SecondExampleMiss891(a, cands[2].form);
    SecondExampleMiss443Rotated(a, cands[3].form);
    SecondExampleHit327Rotated(a, cands[4].form);
    MergedWidthFits(a, cands, 4);
    SecondExampleTopOfRest(m);
    SecondExampleMiss891(m, cands[2].form);
    SecondExampleHit891Rotated(m, cands[5].form);
    SecondExampleSearch(cands, m);
  }

  // The third fixture: 4892 = [[0,0,1],[1,0,1]] over six solid rows,
  // 1839 = four solid rows over [1,0,0] and
  // 8183 = [[0,1,1],[1,1,1],[1,1,1],[1,1,0],[0,1,0]]. No rotated candidate
  // is reached.

  /** Third level of the third example: 4892 and 8183 are used, and 1839 fits. */
  lemma ThirdExampleTop(cands: seq<Candidate>, path: seq<Candidate>, m: Grid)
    requires BlockIds(cands, 4892, 1839, 8183) && CommonWidth(cands) && WidthFits(m, cands)
    requires Merge(m, cands[1].form).Some?
    ensures Dfs(1, cands, {4892, 8183}, path, m).path == Some(path + [cands[1]])
  {
    var used: set<int> := {4892, 8183};
    MergedWidthFits(m, cands, 1);
    var top := Merge(m, cands[1].form).value;
    var p := path + [cands[1]];
    assert Dfs(0, cands, used + {1839}, p, top).path == Some(p);
    assert Attempt(1, cands, 1, used, path, m).path == Some(p);
    assert Try(1, cands, 1, used, path, m).path == Some(p);
    assert Attempt(1, cands, 0, used, path, m).path.None?;
  }

  /** Second level of the third example: 4892 is used, 1839 does not fit and 8183 does. */
  lemma ThirdExampleMiddle(cands: seq<Candidate>, a: Grid, m: Grid)
    requires BlockIds(cands, 4892, 1839, 8183) && CommonWidth(cands) && WidthFits(a, cands) && WidthFits(m, cands)
    requires Merge(a, cands[1].form).None? && Merge(a, cands[2].form) == Some(m)
    requires Merge(m, cands[1].form).Some?
    ensures Dfs(2, cands, {4892}, [cands[0]], a).path == Some([cands[0], cands[2], cands[1]])
  {
    var used: set<int> := {4892};
    var path := [cands[0]];
    var p1 := path + [cands[2]];
    assert used + {8183} == {4892, 8183};
    ThirdExampleTop(cands, p1, m);
    var p := p1 + [cands[1]];
    assert p == [cands[0], cands[2], cands[1]];
    assert Attempt(2, cands, 2, used, path, a).path == Some(p);
    assert Try(2, cands, 2, used, path, a).path == Some(p);
    assert Attempt(2, cands, 1, used, path, a).path.None?;
    assert Try(2, cands, 1, used, path, a).path == Some(p);
    assert Attempt(2, cands, 0, used, path, a).path.None?;
  }

  /** First level of the third example: 4892 fits on the empty ground and the rest follows. */
  lemma ThirdExampleSearch(cands: seq<Candidate>, m: Grid)
    requires BlockIds(cands, 4892, 1839, 8183) && CommonWidth(cands) && WidthFits(cands[0].form, cands) && WidthFits(m, cands)
    requires Merge([], cands[0].form) == Some(cands[0].form)
    requires Merge(cands[0].form, cands[1].form).None? && Merge(cands[0].form, cands[2].form) == Some(m)
    requires Merge(m, cands[1].form).Some?
    ensures WidthFits([], cands) && Dfs(3, cands, {}, [], []).path == Some([cands[0], cands[2], cands[1]])
  {
    ThirdExampleMiddle(cands, cands[0].form, m);
    var used: set<int> := {};
    assert used + {4892} == {4892};
    var path: seq<Candidate> := [];
    assert path + [cands[0]] == [cands[0]];
    assert Attempt(3, cands, 0, used, path, []).path == Some([cands[0], cands[2], cands[1]]);
  }

  /** 4892 is solid at the bottom, so it fits on the empty ground and is kept whole. */
  lemma ThirdExampleGround(a: Grid)
    requires a == [[0, 0, 1], [1, 0, 1], [1, 1, 1], [1, 1, 1], [1, 1, 1], [1, 1, 1], [1, 1, 1], [1, 1, 1]]
    ensures SameWidth([], a) && Merge([], a) == Some(a)
  {
    assert !Zeros(a[7]);
    GroundFit(a);
  }

  /** The top open face of 4892 is its first two rows. */
  lemma ThirdExampleTopOf4892(a: Grid)
    requires a == [[0, 0, 1], [1, 0, 1], [1, 1, 1], [1, 1, 1], [1, 1, 1], [1, 1, 1], [1, 1, 1], [1, 1, 1]]
    ensures OpenTop(a) == [[0, 0, 1], [1, 0, 1]]
  {
    assert Zeros(a[0]) && Zeros(a[1]) && !Zeros(a[2]);
    OpenTopUnique(a, 2);
  }

  /** 1839 has a bottom open face of one row, one fewer than 4892's top face. */
  lemma ThirdExampleMiss1839(a: Grid, b: Grid)
    requires a == [[0, 0, 1], [1, 0, 1], [1, 1, 1], [1, 1, 1], [1, 1, 1], [1, 1, 1], [1, 1, 1], [1, 1, 1]]
    requires b == [[1, 1, 1], [1, 1, 1], [1, 1, 1], [1, 1, 1], [1, 0, 0]]
    ensures SameWidth(a, b) && Merge(a, b).None?
  {
    ThirdExampleTopOf4892(a);
    assert Zeros(b[4]) && !Zeros(b[3]);
    OpenBottomUnique(b, 1);
  }

  /** 8183 fits on 4892 and leaves its first three rows. */
  lemma ThirdExampleHit8183(a: Grid, c: Grid)
    requires a == [[0, 0, 1], [1, 0, 1], [1, 1, 1], [1, 1, 1], [1, 1, 1], [1, 1, 1], [1, 1, 1], [1, 1, 1]]
    requires c == [[0, 1, 1], [1, 1, 1], [1, 1, 1], [1, 1, 0], [0, 1, 0]]
    ensures SameWidth(a, c) && Merge(a, c) == Some([[0, 1, 1], [1, 1, 1], [1, 1, 1]])
  {
    ThirdExampleTopOf4892(a);
    assert Zeros(c[4]) && Zeros(c[3]) && !Zeros(c[2]);
    OpenBottomUnique(c, 2);
    assert RowDiffers(a[0], c[3]) && RowDiffers(a[1], c[4]);
    assert c[..3] == [[0, 1, 1], [1, 1, 1], [1, 1, 1]];
  }

  /** 1839 fits on what 8183 leaves. */
  lemma ThirdExampleHit1839(m: Grid, b: Grid)
    requires m == [[0, 1, 1], [1, 1, 1], [1, 1, 1]]
    requires b == [[1, 1, 1], [1, 1, 1], [1, 1, 1], [1, 1, 1], [1, 0, 0]]
    ensures SameWidth(m, b) && Merge(m, b).Some?
  {
    assert Zeros(m[0]) && !Zeros(m[1]);
    OpenTopUnique(m, 1);
    assert Zeros(b[4]) && !Zeros(b[3]);
    OpenBottomUnique(b, 1);
    assert RowDiffers(m[0], b[4]);
  }

  /** The fit facts of the third example, assembled into the search. */
  lemma ThirdExampleFits(cands: seq<Candidate>)
    requires BlockIds(cands, 4892, 1839, 8183) && CommonWidth(cands)
    requires cands[0].form == [[0, 0, 1], [1, 0, 1], [1, 1, 1], [1, 1, 1], [1, 1, 1], [1, 1, 1], [1, 1, 1], [1, 1, 1]]
    requires cands[1].form == [[1, 1, 1], [1, 1, 1], [1, 1, 1], [1, 1, 1], [1, 0, 0]]
    requires cands[2].form == [[0, 1, 1], [1, 1, 1], [1, 1, 1], [1, 1, 0], [0, 1, 0]]
    ensures WidthFits([], cands) && Dfs(3, cands, {}, [], []).path == Some([cands[0], cands[2], cands[1]])
  {
    var a := cands[0].form;
    var m: Grid := [[0, 1, 1], [1, 1, 1], [1, 1, 1]];
    ThirdExampleGround(a);
    ThirdExampleMiss1839(a, cands[1].form);
    ThirdExampleHit8183(a, cands[2].form);
    assert WidthFits(a, cands) by {
      assert forall k :: 0 <= k < |cands| ==> SameWidth(cands[0].form, cands[k].form);
    }
    MergedWidthFits(a, cands, 2);
    ThirdExampleHit1839(m, cands[1].form);
    ThirdExampleSearch(cands, m);
  }

  /** The blocks of the third example are valid input. */
  lemma ThirdExampleValid(blocks: seq<Block>)
    requires blocks == [
      Block(4892, [[0, 0, 1], [1, 0, 1], [1, 1, 1], [1, 1, 1], [1, 1, 1], [1, 1, 1], [1, 1, 1], [1, 1, 1]]),
      Block(1839, [[1, 1, 1], [1, 1, 1], [1, 1, 1], [1, 1, 1], [1, 0, 0]]),
      Block(8183, [[0, 1, 1], [1, 1, 1], [1, 1, 1], [1, 1, 0], [0, 1, 0]])]
    ensures ValidBlocks(blocks)
  {
    assert Width(blocks) == 3;
  }

  /** The unrotated candidates of the third example come first. */
  lemma ThirdExampleCandidates(blocks: seq<Block>)
    requires blocks == [
      Block(4892, [[0, 0, 1], [1, 0, 1], [1, 1, 1], [1, 1, 1], [1, 1, 1], [1, 1, 1], [1, 1, 1], [1, 1, 1]]),
      Block(1839, [[1, 1, 1], [1, 1, 1], [1, 1, 1], [1, 1, 1], [1, 0, 0]]),
      Block(8183, [[0, 1, 1], [1, 1, 1], [1, 1, 1], [1, 1, 0], [0, 1, 0]])]
    ensures ValidBlocks(blocks)
    ensures var cands := Candidates(blocks);
      && BlockIds(cands, 4892, 1839, 8183)
      && cands[0] == Candidate(4892, blocks[0].form, false)
      && cands[1] == Candidate(1839, blocks[1].form, false)
      && cands[2] == Candidate(8183, blocks[2].form, false)
  {
    ThirdExampleValid(blocks);
  }

  /**
   * The third `Layout` example of the repository's tests: 4892 at the
   * bottom, then 8183, then 1839, none rotated.
   */
  lemma ThirdLayoutExample(blocks: seq<Block>)
    requires blocks == [
      Block(4892, [[0, 0, 1], [1, 0, 1], [1, 1, 1], [1, 1, 1], [1, 1, 1], [1, 1, 1], [1, 1, 1], [1, 1, 1]]),
      Block(1839, [[1, 1, 1], [1, 1, 1], [1, 1, 1], [1, 1, 1], [1, 0, 0]]),
      Block(8183, [[0, 1, 1], [1, 1, 1], [1, 1, 1], [1, 1, 0], [0, 1, 0]])]
    ensures ValidBlocks(blocks)
    ensures Layout(blocks) == Some([LayoutResult(4892, 1, false), LayoutResult(8183, 2, false), LayoutResult(1839, 3, false)])
  {
    ThirdExampleCandidates(blocks);
    var cands := Candidates(blocks);
    CandidatesCommonWidth(blocks);
    ThirdExampleFits(cands);
    NumberThree(cands[0], cands[2], cands[1]);
  }

  // The fourth fixture: 1 = [[1,0,1],[1,1,1],[1,1,1]],
  // 2 = [0,0,1] over four solid rows and 3 = [[0,1,1],[1,1,1],[0,1,0]].

  /**
   * Third level of the fourth example: 1 and 3 are used, 2 as given does not
   * fit, and 2 rotated does.
   */
  lemma FourthExampleTop(cands: seq<Candidate>, path: seq<Candidate>, m: Grid)
    requires BlockIds(cands, 1, 2, 3) && CommonWidth(cands) && WidthFits(m, cands)
    requires Merge(m, cands[1].form).None? && Merge(m, cands[4].form).Some?
    ensures Dfs(1, cands, {1, 3}, path, m).path == Some(path + [cands[4]])
  {
    var used: set<int> := {1, 3};
    MergedWidthFits(m, cands, 4);
    var top := Merge(m, cands[4].form).value;
    var p := path + [cands[4]];
    assert Dfs(0, cands, used + {2}, p, top).path == Some(p);
    assert Attempt(1, cands, 4, used, path, m).path == Some(p);
    assert Try(1, cands, 4, used, path, m).path == Some(p);
    assert Attempt(1, cands, 3, used, path, m).path.None?;
    assert Try(1, cands, 3, used, path, m).path == Some(p);
    assert Attempt(1, cands, 2, used, path, m).path.None?;
    assert Try(1, cands, 2, used, path, m).path == Some(p);
    assert Attempt(1, cands, 1, used, path, m).path.None?;
    assert Try(1, cands, 1, used, path, m).path == Some(p);
    assert Attempt(1, cands, 0, used, path, m).path.None?;
  }

  /** Second level of the fourth example: 1 is used, 2 does not fit and 3 does. */
  lemma FourthExampleMiddle(cands: seq<Candidate>, a: Grid, m: Grid)
    requires BlockIds(cands, 1, 2, 3) && CommonWidth(cands) && WidthFits(a, cands) && WidthFits(m, cands)
    requires Merge(a, cands[1].form).None? && Merge(a, cands[2].form) == Some(m)
    requires Merge(m, cands[1].form).None? && Merge(m, cands[4].form).Some?
    ensures Dfs(2, cands, {1}, [cands[0]], a).path == Some([cands[0], cands[2], cands[4]])
  {
    var used: set<int> := {1};
    var path := [cands[0]];
    var p1 := path + [cands[2]];
    assert used + {3} == {1, 3};
    FourthExampleTop(cands, p1, m);
    var p := p1 + [cands[4]];
    assert p == [cands[0], cands[2], cands[4]];
    assert Attempt(2, cands, 2, used, path, a).path == Some(p);
    assert Try(2, cands, 2, used, path, a).path == Some(p);
    assert Attempt(2, cands, 1, used, path, a).path.None?;
    assert Try(2, cands, 1, used, path, a).path == Some(p);
    assert Attempt(2, cands, 0, used, path, a).path.None?;
  }

  /** First level of the fourth example: 1 fits on the empty ground and the rest follows. */
  lemma FourthExampleSearch(cands: seq<Candidate>, m: Grid)
    requires BlockIds(cands, 1, 2, 3) && CommonWidth(cands) && WidthFits(cands[0].form, cands) && WidthFits(m, cands)
    requires Merge([], cands[0].form) == Some(cands[0].form)
    requires Merge(cands[0].form, cands[1].form).None? && Merge(cands[0].form, cands[2].form) == Some(m)
    requires Merge(m, cands[1].form).None? && Merge(m, cands[4].form).Some?
    ensures WidthFits([], cands) && Dfs(3, cands, {}, [], []).path == Some([cands[0], cands[2], cands[4]])
  {
    FourthExampleMiddle(cands, cands[0].form, m);
    var used: set<int> := {};
    assert used + {1} == {1};
    var path: seq<Candidate> := [];
    assert path + [cands[0]] == [cands[0]];
    assert Attempt(3, cands, 0, used, path, []).path == Some([cands[0], cands[2], cands[4]]);
  }

  /** Block 1 is solid at the bottom, so it fits on the empty ground and is kept whole. */
  lemma FourthExampleGround(a: Grid)
    requires a == [[1, 0, 1], [1, 1, 1], [1, 1, 1]]
    ensures SameWidth([], a) && Merge([], a) == Some(a)
  {
    assert !Zeros(a[2]);
    GroundFit(a);
  }

  /** Block 2 as given is solid at the bottom, so it fits on nothing with an open top. */
  lemma FourthExampleMiss2(g: Grid, b: Grid)
    requires |OpenTop(g)| > 0
    requires b == [[0, 0, 1], [1, 1, 1], [1, 1, 1], [1, 1, 1], [1, 1, 1]]
    requires SameWidth(g, b)
    ensures Merge(g, b).None?
  {
    assert !Zeros(b[4]);
  }

  /** Block 3 fits on block 1 and leaves its first two rows. */
  lemma FourthExampleHit3(a: Grid, c: Grid)
    requires a == [[1, 0, 1], [1, 1, 1], [1, 1, 1]]
    requires c == [[0, 1, 1], [1, 1, 1], [0, 1, 0]]
    ensures SameWidth(a, c) && |OpenTop(a)| > 0 && Merge(a, c) == Some([[0, 1, 1], [1, 1, 1]])
  {
    assert Zeros(a[0]) && !Zeros(a[1]);
    OpenTopUnique(a, 1);
    assert Zeros(c[2]) && !Zeros(c[1]);
    OpenBottomUnique(c, 1);
    assert RowDiffers(a[0], c[2]);
    assert c[..2] == [[0, 1, 1], [1, 1, 1]];
  }

  /** Block 2 rotated fits on what block 3 leaves. */
  lemma FourthExampleHit2Rotated(m: Grid, rb: Grid)
    requires m == [[0, 1, 1], [1, 1, 1]]
    requires rb == [[1, 1, 1], [1, 1, 1], [1, 1, 1], [1, 1, 1], [1, 0, 0]]
    ensures SameWidth(m, rb) && |OpenTop(m)| > 0 && Merge(m, rb).Some?
  {
    assert Zeros(m[0]) && !Zeros(m[1]);
    OpenTopUnique(m, 1);
    assert Zeros(rb[4]) && !Zeros(rb[3]);
    OpenBottomUnique(rb, 1);
    assert RowDiffers(m[0], rb[4]);
  }

  lemma RotateFourthExample(b: Grid)
    requires b == [[0, 0, 1], [1, 1, 1], [1, 1, 1], [1, 1, 1], [1, 1, 1]]
    ensures Rotate(b) == [[1, 1, 1], [1, 1, 1], [1, 1, 1], [1, 1, 1], [1, 0, 0]]
  {
    RotateByCells(b, [[1, 1, 1], [1, 1, 1], [1, 1, 1], [1, 1, 1], [1, 0, 0]]);
  }

  /** The fit facts of the fourth example, assembled into the search. */
  lemma FourthExampleFits(cands: seq<Candidate>)
    requires BlockIds(cands, 1, 2, 3) && CommonWidth(cands)
    requires cands[0].form == [[1, 0, 1], [1, 1, 1], [1, 1, 1]]
    requires cands[1].form == [[0, 0, 1], [1, 1, 1], [1, 1, 1], [1, 1, 1], [1, 1, 1]]
    requires cands[2].form == [[0, 1, 1], [1, 1, 1], [0, 1, 0]]
    requires cands[4].form == [[1, 1, 1], [1, 1, 1], [1, 1, 1], [1, 1, 1], [1, 0, 0]]
    ensures WidthFits([], cands) && Dfs(3, cands, {}, [], []).path == Some([cands[0], cands[2], cands[4]])
  {
    var a := cands[0].form;
    var m: Grid := [[0, 1, 1], [1, 1, 1]];
    FourthExampleGround(a);
    FourthExampleHit3(a, cands[2].form);
    assert WidthFits(a, cands) by {
      assert forall k :: 0 <= k < |cands| ==> SameWidth(cands[0].form, cands[k].form);
    }
    FourthExampleMiss2(a, cands[1].form);
    MergedWidthFits(a, cands, 2);
    FourthExampleHit2Rotated(m, cands[4].form);
    FourthExampleMiss2(m, cands[1].form);
    FourthExampleSearch(cands, m);
  }

  /** The blocks of the fourth example are valid input. */
  lemma FourthExampleValid(blocks: seq<Block>)
    requires blocks == [
      Block(1, [[1, 0, 1], [1, 1, 1], [1, 1, 1]]),
      Block(2, [[0, 0, 1], [1, 1, 1], [1, 1, 1], [1, 1, 1], [1, 1, 1]]),
      Block(3, [[0, 1, 1], [1, 1, 1], [0, 1, 0]])]
    ensures ValidBlocks(blocks)
  {
    assert Width(blocks) == 3;
  }

  /** The candidates of the fourth example, with block 2 rotated worked out. */
  lemma FourthExampleCandidates(blocks: seq<Block>)
    requires blocks == [
      Block(1, [[1, 0, 1], [1, 1, 1], [1, 1, 1]]),
      Block(2, [[0, 0, 1], [1, 1, 1], [1, 1, 1], [1, 1, 1], [1, 1, 1]]),
      Block(3, [[0, 1, 1], [1, 1, 1], [0, 1, 0]])]
    ensures ValidBlocks(blocks)
    ensures var cands := Candidates(blocks);
      && BlockIds(cands, 1, 2, 3)
      && cands[0] == Candidate(1, blocks[0].form, false)
      && cands[1].form == blocks[1].form
      && cands[2] == Candidate(3, blocks[2].form, false)
      && cands[4] == Candidate(2, [[1, 1, 1], [1, 1, 1], [1, 1, 1], [1, 1, 1], [1, 0, 0]], true)
  {
    FourthExampleValid(blocks);
    RotateFourthExample(blocks[1].form);
  }

  /**
   * The fourth `Layout` example of the repository's tests: 1 at the bottom,
   * then 3, then 2 rotated.
   */
  lemma FourthLayoutExample(blocks: seq<Block>)
    requires blocks == [
      Block(1, [[1, 0, 1], [1, 1, 1], [1, 1, 1]]),
      Block(2, [[0, 0, 1], [1, 1, 1], [1, 1, 1], [1, 1, 1], [1, 1, 1]]),
      Block(3, [[0, 1, 1], [1, 1, 1], [0, 1, 0]])]
    ensures ValidBlocks(blocks)
    ensures Layout(blocks) == Some([LayoutResult(1, 1, false), LayoutResult(3, 2, false), LayoutResult(2, 3, true)])
  {
    FourthExampleCandidates(blocks);
    var cands := Candidates(blocks);
    CandidatesCommonWidth(blocks);
    FourthExampleFits(cands);
    NumberThree(cands[0], cands[2], cands[4]);
  }

  /**
   * A block open at both ends cannot stand on the empty ground in either
   * orientation, so `Layout` finds no stack: the case where the source panics.
   */
  lemma NoStackExample(blocks: seq<Block>)
    requires blocks == [Block(1, [[0]])]
    ensures ValidBlocks(blocks) && Layout(blocks).None?
  {
    assert Width(blocks) == 1;
    var cands := Candidates(blocks);
    RotateCellExample(blocks[0].form);
    forall ext: seq<Candidate> | |ext| == 1 && Extension(cands, {}, [], ext)
      ensures false
    {
      GroundCondition(cands, {}, ext);
    }
  }
}

=== FILE: wrappers.dfy ===
/** The optional value used where the solver can come back empty-handed. */
module Wrappers {

  datatype Option<+T> = None | Some(value: T)
}
